=== FILE: README.md ===
# Tasks-Generator core, modelled in Dafny

Tasks-Generator turns a feature idea into a specification. The idea is a goal, the target users, the constraints and a template type. The specification has a title, user stories, engineering tasks in four groups (Frontend, Backend, Database, DevOps) and risks. The browser shows the tasks on a board that can be rearranged and exported as Markdown. This project models the logic behind that, as pure functions over immutable data, and proves properties of it.

- **The task board** (`TaskBoard`, `MarkdownExport`, `TaskEditing`).
  - One sequence of tasks is the board. A column is the order-preserving filter of one group.
  - Modelled: the drag-end reducer, renaming, deleting, the Markdown export, the download file name, and the inline title editor of one task item.
- **The generation pipeline** (`Ai`, `Prompts`, `GenerateRoute`).
  - `sanitizeInput`: seven case-insensitive global substitutions, applied to the user prompt only.
  - `buildUserPrompt`.
  - The generator call, with the chat service as a parameter.
  - `extractJSON`.
  - The `POST /api/generate` handler. It checks the request fields, then parses, shape-checks, filters and counts the answer. Then it stores the record and trims the store.
- **The store and the history** (`SpecStore`, `HistoryRoute`).
  - The store is a sequence of records with natural-number ids and creation times.
  - Retention keeps the five newest records. The history query lists the five newest, newest first, as `(id, title, createdAt)`.
- **The data model** (`SpecModel`, `JsonValue`).
  - The task and specification records and the closed group enum.
  - A small JSON value type. `JSON.parse` maps into it as an opaque partial function.

Shared helpers:

- `Wrappers`: `Option`/`Result`.
- `Text`: JavaScript `trim`, line splitting and joining, and white-space runs.

Outside inputs are parameters:

- the request body, `None` when it is not JSON;
- the environment's API key;
- the system prompt;
- the chat service;
- `JSON.parse`;
- the clock.

The handler is layered. `GenerateRoute.Ask` asks the generator and interprets the reply. `GenerateRoute.Generate` is everything after the field check, taking that outcome as a value. `GenerateRoute.Post` reads the fields and composes the two (`GenerateRoute.PostIsGenerate`). The properties of a successful request are stated about `Generate`.

## Model

| member | source | states |
|---|---|---|
| SpecModel.ParseGroup | src/models/Spec.ts:3 | a string names a group exactly when it is one of the four literals, and it names that group |
| SpecModel.GroupLiteralsRoundTrip | src/app/generate/components/TaskBoard.tsx:36 | every group's literal reads back as that group; the board's group list holds the four groups once each |
| TaskBoard.RemoveAt | src/app/generate/components/TaskBoard.tsx:106 | removing index i shifts the later elements down by one and removes one copy of s[i] from the multiset |
| TaskBoard.InsertAt | src/app/generate/components/TaskBoard.tsx:116 | `splice(i, 0, x)`: x lands at i, earlier elements stay, later ones shift up, the multiset gains x |
| TaskBoard.ArrayMove | src/app/generate/components/TaskBoard.tsx:106 | `arrayMove` is a permutation that puts the moved element at the target index and keeps the others in order |
| TaskBoard.ArrayMoveRoundTrip | src/app/generate/components/TaskBoard.tsx:106 | moving back from the target index to the source index restores the board |
| TaskBoard.FindIndex | src/app/generate/components/TaskBoard.tsx:86 | `findIndex`: -1 exactly when no task has the id, otherwise the first index with that id |
| TaskBoard.Column | src/app/generate/components/TaskBoard.tsx:40 | a column holds exactly the board's tasks of that group |
| TaskBoard.ColumnAppend | src/app/generate/components/TaskBoard.tsx:40 | a column keeps board order: the column of a concatenation is the concatenation of the columns |
| TaskBoard.DragEndNoOp | src/app/generate/components/TaskBoard.tsx:80-102 | with no drop target, an unknown dragged id, or a target that is neither a group literal nor a task id, the board is unchanged |
| TaskBoard.DragEndOnColumn | src/app/generate/components/TaskBoard.tsx:94-100 | a drop on a column removes every task with the dragged id and appends the dragged task, regrouped, at the very end; the others keep their order; the column test wins over a task with the same id |
| TaskBoard.DragEndWithinGroup | src/app/generate/components/TaskBoard.tsx:104-107 | a same-group drop is a permutation that puts the dragged task at the target's index; other columns are unchanged and its own column is only reordered |
| TaskBoard.DragEndAcrossGroups | src/app/generate/components/TaskBoard.tsx:109-118 | a cross-group drop gives the dragged task the target's group and places it immediately before the first task carrying the target's id; all other tasks keep their relative order |
| TaskBoard.MoveOntoTaskShape | src/app/generate/components/TaskBoard.tsx:110-118 | the splice puts the regrouped task at the target's new index, just before the first task with the target's id, and it is the only task with its id |
| TaskBoard.DragEndKeepsIds | src/app/generate/components/TaskBoard.tsx:77-122 | no drop adds or loses an id; on a board with distinct ids, ids stay distinct and the length is kept |
| TaskBoard.RenameTask | src/app/generate/components/TaskBoard.tsx:124-130 | renaming changes only the titles of tasks with the id; length, order, ids and groups are kept; an unknown id is a no-op |
| TaskBoard.RenameKeepsOthers | src/app/generate/components/TaskBoard.tsx:124-130 | apart from the renamed tasks, the board is identical |
| TaskBoard.RenameLastWins | src/app/generate/components/TaskBoard.tsx:124-130 | two renames of the same id leave the second title |
| TaskBoard.RenameKeepsIds | src/app/generate/components/TaskBoard.tsx:124-130 | renaming keeps the id set and distinct ids |
| TaskBoard.WithoutId | src/app/generate/components/TaskBoard.tsx:132-134 | deleting removes exactly the tasks with the id, keeps every other task, and is a no-op for an unknown id |
| TaskBoard.WithoutIdAppend | src/app/generate/components/TaskBoard.tsx:132-134 | deleting keeps relative order: it distributes over concatenation |
| TaskBoard.DeleteProperties | src/app/generate/components/TaskBoard.tsx:132-134 | deleting is idempotent, keeps ids distinct, and commutes with taking a column |
| MarkdownExport.Bullets | src/app/generate/components/TaskBoard.tsx:53 | each story, risk or task title becomes one `- ` bullet, in order |
| MarkdownExport.PresentGroups | src/app/generate/components/TaskBoard.tsx:38-45 | the groups that get a block are exactly those with a non-empty column, each pair in the order the group list gives them |
| MarkdownExport.NonEmptySections | src/app/generate/components/TaskBoard.tsx:38-45 | dropping the empty strings leaves one block per non-empty group, in group order |
| MarkdownExport.MarkdownLines | src/app/generate/components/TaskBoard.tsx:37-59 | line by line, the export is the title heading, the Goal section, the story bullets, one block per present group with its task bullets, and the risk bullets, ending with a line break |
| MarkdownExport.EveryTaskListed | src/app/generate/components/TaskBoard.tsx:38-45 | every task on the board appears as a `- title` line of the export |
| MarkdownExport.DownloadName | src/app/generate/components/TaskBoard.tsx:155 | the download name ends in `.md` and contains no white space; a title without white space is kept as is |
| Text.ReplaceWhitespaceRuns | src/app/generate/components/TaskBoard.tsx:155 | `replace(/\s+/g, "_")` leaves no white space, never lengthens, and leaves white-space-free text alone |
| Text.ReplaceRunAfterWord | src/app/generate/components/TaskBoard.tsx:155 | a whole white-space run between words becomes one `_`, and the text before it is copied |
| Text.Trim | src/app/api/generate/route.ts:15 | `trim` yields a text with no white space at either end, obtained by cutting white space only from the ends |
| Text.TrimIdempotent | src/app/api/generate/route.ts:23 | trimming twice is trimming once |
| Text.AllWhitespaceTrimsToEmpty | src/app/api/generate/route.ts:32-37 | a text trims to the empty, falsy string exactly when it is all white space |
| TaskEditing.CommitTitle | src/app/generate/components/SortableTaskItem.tsx:70 | a commit sends the trimmed text when it is not blank, and the current title when it is; a non-empty title never becomes empty |
| TaskEditing.Handle | src/app/generate/components/SortableTaskItem.tsx:64-92 | only a commit asks for an update, for this task's id and with the commit title, and it closes the editor; `editingId` changes only to none or to this task |
| TaskEditing.ApplyUpdate | src/app/generate/components/TaskBoard.tsx:124-130 | no update leaves the board as it is; an update keeps its length |
| TaskEditing.CommitPaths | src/app/generate/components/SortableTaskItem.tsx:69-77 | Enter and blur react identically: one update with the commit title, editor closed |
| TaskEditing.EscapeReverts | src/app/generate/components/SortableTaskItem.tsx:78-81 | Escape restores the title into the input and closes the editor without an update |
| TaskEditing.UpdateOnlyOnCommit | src/app/generate/components/SortableTaskItem.tsx:64-92 | an update happens exactly on Enter or blur while editing; only a click opens the editor |
| TaskEditing.TitlesStayNonEmpty | src/app/generate/components/SortableTaskItem.tsx:70-75 | if every title on the board is non-empty before an event, every title is non-empty after it |
| TaskEditing.BlankCommitKeepsBoard | src/app/generate/components/SortableTaskItem.tsx:70-75 | committing a blank value leaves the board exactly as it was |
| TaskEditing.AtMostOneEditing | src/app/generate/components/SortableTaskItem.tsx:41 | with distinct ids, at most one item is in edit mode |
| TaskEditing.SharedIdEditsTwice | src/app/generate/components/SortableTaskItem.tsx:88 | two tasks sharing an id both enter edit mode on one click |
| TaskEditing.ResyncFollowsTitle | src/app/generate/components/SortableTaskItem.tsx:31-34 | after a title change the `[task.title]` effect (`Resync`) leaves the item as if freshly mounted with the new title |
| TaskEditing.Round | src/app/generate/components/SortableTaskItem.tsx:31-34 | one event, the board update and the re-render keep the board's length and the item's id |
| TaskEditing.StaleValueAfterBlankCommit | src/app/generate/components/SortableTaskItem.tsx:31-34 | as written: clear, Enter, click reopens the editor showing the blank text instead of the title |
| TaskEditing.CommitSynced | src/app/generate/components/SortableTaskItem.tsx:69-77 | corrected commit: the same update, and the input holds the committed title |
| TaskEditing.HandleSynced | src/app/generate/components/SortableTaskItem.tsx:64-92 | the corrected handler asks for the same updates and moves `editingId` the same way as the original |
| TaskEditing.ClosedEditorShowsTitle | src/app/generate/components/SortableTaskItem.tsx:69-81 | with the corrected commit, whenever the editor closes, the input holds the title the board shows |
| Ai.RulesAreGrowing | src/lib/ai.ts:24-33 | each of the seven patterns is a non-empty lower-case word replaced by a strictly longer phrase |
| Ai.ReplaceGrows | src/lib/ai.ts:26 | a global substitution never shortens the text, and lengthens it exactly when the pattern occurs |
| Ai.ReplaceUnchangedIff | src/lib/ai.ts:26 | one substitution leaves the text unchanged exactly when the pattern occurs nowhere, comparing case-folded text (`Lower`) as the `i` flag does |
| Ai.ReplaceLeadingMatch | src/lib/ai.ts:26 | a match at the front is replaced and the scan resumes after it, so matches do not overlap |
| Ai.ApplyRulesUnchangedIff | src/lib/ai.ts:24-33 | a chain of growing substitutions leaves a text unchanged exactly when none of its patterns occurs |
| Ai.SanitizeUnchangedIff | src/lib/ai.ts:24-33 | sanitising never shortens, and returns the input unchanged exactly when none of the seven terms occurs in any case |
| Ai.SubstringMatch | src/lib/ai.ts:26 | matching is by substring and ignores case: "Hackathon" becomes "security testathon" |
| Ai.SanitizeHackathon | src/lib/ai.ts:24-33 | the whole chain maps "Hackathon" to "security testathon" |
| Ai.GenerateSpec | src/lib/ai.ts:35-60 | a missing or blank key fails before any request; with a usable key, a failed call is `RequestFailed` exactly, an absent or empty completion is `EmptyResponse` exactly, and a non-empty completion to the two messages is returned as it is |
| Prompts.BuildUserPrompt | src/lib/prompts.ts:51-74 | the prompt starts with the fixed introduction line and ends with the fixed closing line |
| Prompts.PromptTrim | src/lib/prompts.ts:57-73 | `trim()` on the filled-in template removes exactly its leading and trailing line break, whatever the field values are, so values with outer spaces reach the prompt untrimmed |
| Prompts.PromptLines | src/lib/prompts.ts:57-73 | line by line the prompt is the introduction, then Goal, Target Users, Constraints and Template Type, each heading followed by its value's own lines, then the closing line |
| Prompts.PromptFieldsRecoverable | src/lib/prompts.ts:60-70 | for single-line values the prompt has 15 lines and each value sits verbatim on the line after its heading |
| Prompts.GroupLiteralsAgree | src/lib/prompts.ts:35-39 | the system prompt's group literals are the four groups, in order, and exactly the names a group parses from |
| GenerateRoute.DropPrefix | src/app/api/generate/route.ts:20-21 | the text opens with the prefix exactly when putting the prefix back in front of the result gives the text; otherwise the text is unchanged |
| GenerateRoute.DropSuffix | src/app/api/generate/route.ts:22 | the text ends with the suffix exactly when appending the suffix to the result gives the text; otherwise the text is unchanged |
| GenerateRoute.ExtractJson | src/app/api/generate/route.ts:14-27 | the result is always trimmed, and text that does not open with a fence is just trimmed |
| GenerateRoute.ExtractJsonFence | src/app/api/generate/route.ts:18-24 | a "```json" fence, with any white space around it, yields the trimmed payload, for a non-empty payload that does not open with a backtick |
| GenerateRoute.ExtractBareFence | src/app/api/generate/route.ts:18-24 | a bare fence yields the trimmed payload |
| GenerateRoute.NoJsonTag | src/app/api/generate/route.ts:20 | the "```json" opening is recognised only when "json" follows the fence in exactly that case |
| GenerateRoute.OtherTagStays | src/app/api/generate/route.ts:18-24 | any other tag, such as "JSON" or "js", is left on its own line before the payload |
| GenerateRoute.ReadField | src/app/api/generate/route.ts:32-35 | `body.key?.trim()` is the trimmed text for a string, undefined for a missing or null member, and throws for any other value |
| GenerateRoute.ReadRequest | src/app/api/generate/route.ts:31-42 | 500 exactly when the body or a field read throws; 400 exactly when goal, users or constraints is missing or blank; otherwise the trimmed fields, with templateType defaulting to "default" |
| GenerateRoute.CheckShape | src/app/api/generate/route.ts:60-70 | `null` answers 500; otherwise success exactly for an object with a string title and three arrays, whose elements are not checked; property reads (`JsonValue.Member`) see only an object's own keys |
| GenerateRoute.ValidGroupsAreGroups | src/app/api/generate/route.ts:72 | the route's valid groups are the system prompt's literals, and exactly the names a group parses from |
| GenerateRoute.ToTask | src/app/api/generate/route.ts:74-80 | a valid entry reads as the task with its id, title and group |
| GenerateRoute.ValidTasks | src/app/api/generate/route.ts:74-80 | the filter never adds entries |
| GenerateRoute.ValidTasksAppend | src/app/api/generate/route.ts:74-80 | survivors keep their original order |
| GenerateRoute.ValidTasksMembers | src/app/api/generate/route.ts:74-80 | the survivors are exactly the valid entries |
| GenerateRoute.ValidTasksKeepAll | src/app/api/generate/route.ts:74-80 | nothing is dropped exactly when every entry is valid |
| GenerateRoute.TaskJsonRoundTrip | src/app/api/generate/route.ts:74-80 | a task written as the generator is told to write it passes the filter and reads back as itself |
| GenerateRoute.ValidTasksRoundTrip | src/app/api/generate/route.ts:74-80 | a list of well-formed tasks passes the filter unchanged |
| GenerateRoute.FilterAcceptsSharedAndEmptyIds | src/app/api/generate/route.ts:74-80 | the filter checks neither id uniqueness nor non-empty strings |
| GenerateRoute.FilterDropsMalformed | src/app/api/generate/route.ts:74-80 | a lower-case group, a numeric id and a null entry are all dropped |
| GenerateRoute.Interpret | src/app/api/generate/route.ts:49-70 | a failed call answers 500; text `JSON.parse` rejects answers 502; a parsed value gets exactly the shape check's verdict |
| GenerateRoute.Ask | src/app/api/generate/route.ts:46-70 | a failed call is 500 "Internal server error", rejected text is 502 "Failed to parse model response as JSON", `null` is 500, any other wrong shape is 502 "Invalid structure from model", and a well-shaped reply passes as its shape |
| GenerateRoute.OnlyUserPromptSanitised | src/lib/ai.ts:40-47 | an accepted answer is the reply to the two messages `Ai.ChatMessages` builds: the system prompt as given, and the user prompt sanitised |
| GenerateRoute.Generate | src/app/api/generate/route.ts:82-113 | after the field check the outcome is 201, 500 or 502; it is 201 exactly when the answer is well-shaped with at least five valid tasks; a failed answer is returned as it is, and failures keep the store |
| GenerateRoute.Accept | src/app/api/generate/route.ts:82-113 | fewer than five valid tasks answers 502 "Model returned insufficient valid tasks" and keeps the store; otherwise the answer is 201 |
| GenerateRoute.Post | src/app/api/generate/route.ts:29-122 | the status is 201, 400, 500 or 502; every failure is an error message that keeps the store; 400 exactly when the field check rejects |
| GenerateRoute.PostFailureKeepsStore | src/app/api/generate/route.ts:37-88 | nothing is created or deleted on any failing path |
| GenerateRoute.PostRejectsBeforeGenerating | src/app/api/generate/route.ts:31-47 | a rejected request is answered before the generator is called: the answer does not depend on the environment |
| GenerateRoute.PostAnswerErrors | src/app/api/generate/route.ts:47-70 | for a request that passes the field check, the failed call, rejected text, `null` and a wrong shape each give their own status and message with the store kept; a well-shaped reply goes on to the count gate |
| GenerateRoute.PostIsGenerate | src/app/api/generate/route.ts:46-70 | a request that passes the field check is answered by asking the generator with the prompt built from its fields |
| GenerateRoute.GenerateCountGate | src/app/api/generate/route.ts:82-88 | once the shape is right, five or more valid tasks create a record, and fewer answer 502 "insufficient valid tasks" with the store unchanged |
| GenerateRoute.GenerateCreated | src/app/api/generate/route.ts:89-113 | the created record (`SpecModel.NewRecord`, both timestamps the creation time) holds the fields, the model's title, stories and risks, and at least five filtered tasks; it gets a fresh id and the current time; the store is trimmed with it |
| GenerateRoute.PostCreated | src/app/api/generate/route.ts:31-33 | the created record's goal, users and constraints are the trimmed strings read from the request body |
| GenerateRoute.GenerateKeepsStoreSmall | src/app/api/generate/route.ts:99-110 | after a creation the store holds min(n+1, 5) records with distinct ids |
| GenerateRoute.GenerateShowsInHistory | src/app/api/generate/route.ts:99-113 | when the clock is past every stored time, the new record survives the trim and the history lists it |
| SpecStore.Insert | src/app/api/generate/route.ts:101-102 | insertion into a newest-first list gives a newest-first permutation with the record added |
| SpecStore.SortNewestFirst | src/app/api/generate/route.ts:101-102 | `sort({ createdAt: -1 })` is a permutation in non-increasing creation time |
| SpecStore.Overflow | src/app/api/generate/route.ts:101-104 | `skip(5)` leaves n - min(n, 5) stored records, each no newer than any stored record it leaves out |
| SpecStore.OverflowMembership | src/app/api/generate/route.ts:101-108 | with distinct ids, a record is selected for deletion, by id or as itself, exactly when it is not among the five newest |
| SpecStore.DeleteIds | src/app/api/generate/route.ts:106-110 | `deleteMany` removes exactly the records whose id is listed |
| SpecStore.FreshId | src/app/api/generate/route.ts:89 | the id `create` hands out differs from every stored id |
| SpecStore.FreshKeepsUnique | src/app/api/generate/route.ts:89 | adding a record with a fresh id keeps ids distinct |
| SpecStore.RetainMembership | src/app/api/generate/route.ts:99-110 | with distinct ids, a record survives retention exactly when it is among the five newest |
| SpecStore.RetainKeepsNewest | src/app/api/generate/route.ts:99-110 | every deleted record is no newer than every kept one |
| SpecStore.RetainSize | src/app/api/generate/route.ts:99-110 | retention leaves min(n, 5) records with distinct ids |
| SpecStore.NewestSurvives | src/app/api/generate/route.ts:99-110 | a record newer than all others survives retention |
| SpecStore.NewestAddedIsListed | src/app/api/generate/route.ts:89-110 | a record added with a fresh id and the latest time survives the trim and is listed in the history |
| SpecStore.Items | src/app/api/history/route.ts:12 | a history entry carries only the record's id, title and creation time |
| SpecStore.HistoryShape | src/app/api/history/route.ts:9-12 | the history has min(n, 5) entries, newest first, each a projection of a stored record; with distinct ids no record is listed twice |
| SpecStore.HistoryIsTopFive | src/app/api/history/route.ts:9-12 | a record the history leaves out is no newer than any entry it lists |
| SpecStore.HistoryListsAll | src/app/api/history/route.ts:9-12 | a store of at most five records is listed in full |
| HistoryRoute.Get | src/app/api/history/route.ts:5-21 | an unreachable store answers 500 "Failed to fetch history"; otherwise at most five entries, newest first, each a projection of a distinct stored record when ids are distinct |
| HistoryRoute.GetShowsNewest | src/app/api/history/route.ts:9-12 | any record the listing leaves out is no newer than the ones it shows |
| HistoryRoute.GenerateThenList | src/app/api/history/route.ts:9-12 | after a successful generate, with the clock past every stored time, the listing shows the new specification |
| HistoryRoute.ListsEveryStored | src/app/api/history/route.ts:9-12 | after a successful generate the listing shows every stored specification, because the trim leaves at most five |

## Two behaviours worth knowing

- **Sanitising** matches substrings, not whole words, so "Hackathon" becomes "security testathon" (`Ai.SubstringMatch`).
- **Fence stripping** removes only a lower-case "```json" opening. Any other tag, such as "JSON" or "js", stays in the text passed to the parser (`GenerateRoute.OtherTagStays`).

## Left out

- The chat client and its lazy singleton, the model name, the temperature and the JSON response format (src/lib/ai.ts:3-20, 42-51). The chat service is a parameter that either fails or replies with optional content.
- `connectDB` and every database or network failure. These reach the same 500 handler as a thrown field read, and `HistoryRoute.Get` takes `None` for them.
- The Mongoose schema's casting and validation at `create`. The model does not reject empty required strings or cast story and risk elements to strings; stories and risks are kept as parsed JSON values. Extra task fields are dropped as the task schema drops them: `GenerateRoute.ToTask` keeps only the id, title and group.
- The JSON grammar. `JSON.parse` is an opaque function returning `None` when it throws. Numbers are integers, since no decision depends on fractions.
- The order of records with equal `createdAt`, which the database leaves open. The sort is a stable insertion sort, and the properties that name particular records assume distinct ids.
- Ids and timestamps: ids are natural numbers (one more than the largest in use), and the clock is a parameter.
- The `SYSTEM_PROMPT` wording. Only its list of group literals is modelled (`Prompts.PromptGroupLiterals`); the route takes the prompt text as a parameter.
- Rendering, the clipboard, the Blob, URL and anchor handling of the download, the copy status timer, status probes, and dnd-kit's collision detection and overlay. Only the drop outcome `(activeId, overId)` and the file name rule are modelled.
- The per-specification fetch and update endpoints and the page that saves the board. These are not part of this model.
- GenerateRoute.ValidTasks: its own contract states only the bound on the count. Order, membership and the round trip are stated by `ValidTasksAppend`, `ValidTasksMembers` and `ValidTasksRoundTrip`.
- MarkdownExport.MarkdownLines: holds when the title, goal, stories, risks and task titles contain no line break (`SingleLineTexts`). A value containing a line break spreads over several lines of the export, and the line-level description does not cover that case.

## Findings

| source | as written | input that shows it | evidently intended | confidence | as-written member | corrected member |
|---|---|---|---|---|---|---|
| src/app/generate/components/SortableTaskItem.tsx:31-34 | A blank commit sends the unchanged title. The effect that copies the title into the input runs only when the title changes, so it does not run, and the input keeps the blank text. | Task "Login form": click, type "   ", press Enter, click again. The editor reopens showing "   " instead of "Login form". | Reopening the editor shows the current title. | not executed | TaskEditing.StaleValueAfterBlankCommit | TaskEditing.ClosedEditorShowsTitle |

=== FILE: ai.dfy ===
/** The generator client: input sanitising and the chat request. Only the user
    prompt passes through the sanitiser; the system prompt is sent as given. The
    chat service itself is a parameter. */
module Ai {
  import opened Wrappers
  import opened Text

  // ---------------------------------------------------------------------------
  // Case-insensitive global substitution

  /** ASCII lower-casing of one character. A case-insensitive regular expression
      without the `u` flag never lets a non-ASCII character match an ASCII one, so
      for the all-ASCII, lower-case patterns used here this is the whole story. */
  function Fold(c: char): char {
    if 'A' <= c <= 'Z' then (c as int + 32) as char else c
  }

  function Lower(s: string): (r: string)
    ensures |r| == |s|
    ensures forall i :: 0 <= i < |s| ==> r[i] == Fold(s[i])
  {
    seq(|s|, i requires 0 <= i < |s| => Fold(s[i]))
  }

  /** The pattern matches the text starting at position `i`, ignoring case. */
  predicate MatchesAt(s: string, i: int, pat: string) {
    0 <= i && i + |pat| <= |s| && Lower(s[i..i + |pat|]) == pat
  }

  predicate Occurs(s: string, pat: string) {
    exists i :: 0 <= i <= |s| - |pat| && MatchesAt(s, i, pat)
  }

  /** `s.replace(/pat/gi, rep)`: scanning left to right, every match is replaced
      and the scan resumes after it, so matches never overlap. */
  function ReplaceAll(s: string, pat: string, rep: string): string
    requires pat != []
  {
    if |s| < |pat| then s
    else if MatchesAt(s, 0, pat) then rep + ReplaceAll(s[|pat|..], pat, rep)
    else [s[0]] + ReplaceAll(s[1..], pat, rep)
  }

  /** A substitution whose pattern is a non-empty lower-case word and whose
      replacement is strictly longer. */
  predicate Growing(rule: (string, string)) {
    rule.0 != [] && Lower(rule.0) == rule.0 && |rule.0| < |rule.1|
  }

  /** The seven substitutions, in the order they are applied. */
  const Rules: seq<(string, string)> := [
    ("hack", "security test"),
    ("attack", "high load scenario"),
    ("exploit", "edge case"),
    ("bypass", "override"),
    ("malware", "unwanted software"),
    ("brute force", "repeated attempts"),
    ("penetration", "security validation")
  ]

  function ApplyRules(s: string, rules: seq<(string, string)>): string
    requires forall i :: 0 <= i < |rules| ==> rules[i].0 != []
    decreases |rules|
  {
    if rules == [] then s else ApplyRules(ReplaceAll(s, rules[0].0, rules[0].1), rules[1..])
  }

  predicate RulesGrow(rules: seq<(string, string)>) {
    forall i :: 0 <= i < |rules| ==> Growing(rules[i])
  }

  lemma RulesAreGrowing()
    ensures RulesGrow(Rules)
  {
    assert Lower("hack") == "hack";
    assert Lower("attack") == "attack";
    assert Lower("exploit") == "exploit";
    assert Lower("bypass") == "bypass";
    assert Lower("malware") == "malware";
    assert Lower("brute force") == "brute force";
    assert Lower("penetration") == "penetration";
  }

  /** `sanitizeInput`. */
  function Sanitize(input: string): string {
    RulesAreGrowing();
    ApplyRules(input, Rules)
  }

  // ---------------------------------------------------------------------------
  // Lemmas about substitution

  /** A match in the text after its first character is a match one position
      further on in the whole text. */
  lemma MatchShift(s: string, i: int, pat: string)
    requires |s| >= 1 && 0 <= i
    ensures MatchesAt(s[1..], i, pat) <==> MatchesAt(s, i + 1, pat)
  {
    if i + |pat| <= |s[1..]| {
      assert s[1..][i..i + |pat|] == s[i + 1..i + 1 + |pat|];
    }
  }

  /** Dropping the first character keeps every match that does not start there. */
  lemma OccursTail(s: string, pat: string)
    requires |s| >= 1 && !MatchesAt(s, 0, pat)
    ensures Occurs(s, pat) <==> Occurs(s[1..], pat)
  {
    if Occurs(s, pat) {
      var i :| 0 <= i <= |s| - |pat| && MatchesAt(s, i, pat);
      assert i > 0;
      MatchShift(s, i - 1, pat);
      assert MatchesAt(s[1..], i - 1, pat);
    }
    if Occurs(s[1..], pat) {
      var i :| 0 <= i <= |s[1..]| - |pat| && MatchesAt(s[1..], i, pat);
      MatchShift(s, i, pat);
      assert MatchesAt(s, i + 1, pat);
    }
  }

  /** Substitution with a longer replacement never shortens the text, leaves it
      untouched when the pattern does not occur, and lengthens it when it does. */
  lemma {:induction false} ReplaceGrows(s: string, pat: string, rep: string)
    requires pat != [] && |pat| < |rep|
    ensures |ReplaceAll(s, pat, rep)| >= |s|
    ensures !Occurs(s, pat) ==> ReplaceAll(s, pat, rep) == s
    ensures Occurs(s, pat) ==> |ReplaceAll(s, pat, rep)| > |s|
  {
    if |s| < |pat| {
    } else if MatchesAt(s, 0, pat) {
      ReplaceGrows(s[|pat|..], pat, rep);
    } else {
      OccursTail(s, pat);
      ReplaceGrows(s[1..], pat, rep);
    }
  }

  /** The text is unchanged by a substitution exactly when the pattern does not
      occur in it, in any case. */
  lemma ReplaceUnchangedIff(s: string, pat: string, rep: string)
    requires pat != [] && |pat| < |rep|
    ensures ReplaceAll(s, pat, rep) == s <==> !Occurs(s, pat)
  {
    ReplaceGrows(s, pat, rep);
  }

  /** A leading match, in whatever case, is replaced and the scan resumes right
      after it. */
  lemma ReplaceLeadingMatch(m: string, rest: string, pat: string, rep: string)
    requires pat != [] && Lower(m) == pat
    ensures ReplaceAll(m + rest, pat, rep) == rep + ReplaceAll(rest, pat, rep)
  {
    var s := m + rest;
    assert s[..|pat|] == m;
    assert s[|pat|..] == rest;
  }

  /** A prefix in which no match starts is copied as it is. */
  lemma {:induction false} ReplaceUnmatchedPrefix(x: string, rest: string, pat: string, rep: string)
    requires pat != []
    requires forall i :: 0 <= i < |x| ==> !MatchesAt(x + rest, i, pat)
    ensures ReplaceAll(x + rest, pat, rep) == x + ReplaceAll(rest, pat, rep)
  {
    if x != [] {
      var s := x + rest;
      assert !MatchesAt(s, 0, pat);
      assert s[1..] == x[1..] + rest;
      forall i | 0 <= i < |x[1..]| ensures !MatchesAt(x[1..] + rest, i, pat) {
        MatchShift(s, i, pat);
      }
      ReplaceUnmatchedPrefix(x[1..], rest, pat, rep);
      ReplaceUnmatchedStep(x, rest, pat, rep);
    } else {
      assert x + rest == rest;
    }
  }

  lemma ReplaceUnmatchedStep(x: string, rest: string, pat: string, rep: string)
    requires pat != [] && x != [] && !MatchesAt(x + rest, 0, pat)
    requires ReplaceAll(x[1..] + rest, pat, rep) == x[1..] + ReplaceAll(rest, pat, rep)
    ensures ReplaceAll(x + rest, pat, rep) == x + ReplaceAll(rest, pat, rep)
  {
    var s := x + rest;
    if |s| < |pat| {
      ReplaceShort(s, pat, rep);
      ReplaceShort(rest, pat, rep);
    } else {
      var tail := ReplaceAll(rest, pat, rep);
      assert s[1..] == x[1..] + rest;
      assert ReplaceAll(s[1..], pat, rep) == x[1..] + tail;
      ReplaceStep(s, pat, rep);
      assert s[0] == x[0];
      ConsSplit(x, tail);
    }
  }

  lemma ConsSplit(x: string, tail: string)
    requires x != []
    ensures [x[0]] + (x[1..] + tail) == x + tail
  {
    assert x == [x[0]] + x[1..];
  }

  lemma ReplaceShort(s: string, pat: string, rep: string)
    requires pat != [] && |s| < |pat|
    ensures ReplaceAll(s, pat, rep) == s
  {
  }

  lemma ReplaceStep(s: string, pat: string, rep: string)
    requires pat != [] && |s| >= |pat| && !MatchesAt(s, 0, pat)
    ensures ReplaceAll(s, pat, rep) == [s[0]] + ReplaceAll(s[1..], pat, rep)
  {
  }

  /** A chain of growing substitutions leaves the text unchanged exactly when
      none of the patterns occurs in it, and otherwise lengthens it. */
  lemma {:induction false} ApplyRulesUnchangedIff(s: string, rules: seq<(string, string)>)
    requires RulesGrow(rules)
    ensures |ApplyRules(s, rules)| >= |s|
    ensures ApplyRules(s, rules) == s <==> forall i :: 0 <= i < |rules| ==> !Occurs(s, rules[i].0)
    decreases |rules|
  {
    if rules != [] {
      var t := ReplaceAll(s, rules[0].0, rules[0].1);
      ReplaceGrows(s, rules[0].0, rules[0].1);
      assert RulesGrow(rules[1..]) by {
        forall i | 0 <= i < |rules[1..]| ensures Growing(rules[1..][i]) {
          assert rules[1..][i] == rules[i + 1];
        }
      }
      ApplyRulesUnchangedIff(t, rules[1..]);
      if !Occurs(s, rules[0].0) {
        assert forall i :: 0 <= i < |rules[1..]| ==> rules[1..][i] == rules[i + 1];
      }
    }
  }

  /** Sanitising changes the text exactly when one of the seven terms occurs in
      it, in any case, and never shortens it. */
  lemma SanitizeUnchangedIff(s: string)
    ensures |Sanitize(s)| >= |s|
    ensures Sanitize(s) == s <==> forall i :: 0 <= i < |Rules| ==> !Occurs(s, Rules[i].0)
  {
    RulesAreGrowing();
    ApplyRulesUnchangedIff(s, Rules);
  }

  // ---------------------------------------------------------------------------
  // The chat request

  datatype Role = System | User
  datatype Message = Message(role: Role, content: string)

  /** What the chat service gives back: `choices[0]?.message?.content` when the
      call returns, or a thrown failure. */
  datatype Reply = Replied(content: Option<string>) | CallFailed

  datatype AiError = MissingApiKey | RequestFailed | EmptyResponse

  /** The messages sent: the system prompt as given, then the sanitised user prompt. */
  function ChatMessages(systemPrompt: string, userPrompt: string): (r: seq<Message>)
    ensures |r| == 2
    ensures r[0] == Message(System, systemPrompt)
    ensures r[1].role == User && r[1].content == Sanitize(userPrompt)
  {
    [Message(System, systemPrompt), Message(User, Sanitize(userPrompt))]
  }

  /** `generateSpec`: a missing or blank key fails before any request; a failed
      call, and an absent or empty completion, are errors; otherwise the
      completion text is returned. */
  function GenerateSpec(apiKey: Option<string>, systemPrompt: string, userPrompt: string,
                        service: seq<Message> -> Reply): (r: Result<string, AiError>)
    ensures (apiKey.None? || IsBlank(apiKey.value)) <==> r == Failure(MissingApiKey)
    ensures r.Success? ==> r.value != []
                           && service(ChatMessages(systemPrompt, userPrompt)) == Replied(Some(r.value))
    ensures r == Failure(EmptyResponse) <==>
              apiKey.Some? && !IsBlank(apiKey.value)
              && service(ChatMessages(systemPrompt, userPrompt)) in {Replied(None), Replied(Some([]))}
    ensures r == Failure(RequestFailed) <==>
              apiKey.Some? && !IsBlank(apiKey.value)
              && service(ChatMessages(systemPrompt, userPrompt)) == CallFailed
    ensures apiKey.Some? && !IsBlank(apiKey.value) ==>
              var reply := service(ChatMessages(systemPrompt, userPrompt));
              reply.Replied? && reply.content.Some? && reply.content.value != [] ==>
                r == Success(reply.content.value)
  {
    if apiKey.None? || Trim(apiKey.value) == [] then
      AllWhitespaceTrimsToEmpty(if apiKey.Some? then apiKey.value else []);
      Failure(MissingApiKey)
    else
      AllWhitespaceTrimsToEmpty(apiKey.value);
      match service(ChatMessages(systemPrompt, userPrompt))
      case CallFailed => Failure(RequestFailed)
      case Replied(content) =>
        if content.None? || content.value == [] then Failure(EmptyResponse)
        else Success(content.value)
  }

  // ---------------------------------------------------------------------------
  // Examples

  /** Matching is by substring and ignores case. */
  lemma SubstringMatch()
    ensures ReplaceAll("Hackathon", "hack", "security test") == "security testathon"
  {
    assert Lower("Hack") == "hack";
    ReplaceLeadingMatch("Hack", "athon", "hack", "security test");
  }

  /** The whole chain on the same word: only the first substitution applies. */
  lemma SanitizeHackathon()
    ensures Sanitize("Hackathon") == "security testathon"
  {
    var t := "security testathon";
    SubstringMatch();
    RulesAreGrowing();
    assert RulesGrow(Rules[1..]);
    forall i | 0 <= i < |Rules[1..]| ensures !Occurs(t, Rules[1..][i].0) {
      NoMatchIn(t, Rules[1..][i].0);
    }
    ApplyRulesUnchangedIff(t, Rules[1..]);
  }

  lemma NoMatchIn(t: string, pat: string)
    requires pat in ["attack", "exploit", "bypass", "malware", "brute force", "penetration"]
    requires t == "security testathon"
    ensures !Occurs(t, pat)
  {
    forall i | 0 <= i <= |t| - |pat| ensures !MatchesAt(t, i, pat) {
      assert Lower(t[i..i + |pat|])[0] == t[i] && Lower(t[i..i + |pat|])[1] == t[i + 1];
    }
  }
}

=== FILE: generate_route.dfy ===
/** `POST /api/generate`: read and check the request fields, ask the generator,
    strip a code fence from its answer, parse it, check its shape, keep the
    well-formed tasks, require five of them, store the specification and trim
    the store to the five newest. The parser, the chat service and the clock are
    parameters. */
module GenerateRoute {
  import opened Wrappers
  import opened Text
  import opened JsonValue
  import opened SpecModel
  import opened Prompts
  import opened Ai
  import opened SpecStore

  // ---------------------------------------------------------------------------
  // extractJSON

  const Fence: string := "```"
  const JsonFence: string := "```json"

  /** `s.replace(/^pre/, "")` for a literal prefix: removed once, if present. */
  function DropPrefix(s: string, pre: string): (r: string)
    ensures StartsWith(s, pre) <==> pre + r == s
    ensures !StartsWith(s, pre) ==> r == s
  {
    if StartsWith(s, pre) then s[|pre|..] else s
  }

  /** `s.replace(/suf$/, "")` for a literal suffix: removed once, if present. */
  function DropSuffix(s: string, suf: string): (r: string)
    ensures EndsWith(s, suf) <==> r + suf == s
    ensures !EndsWith(s, suf) ==> r == s
  {
    if EndsWith(s, suf) then s[..|s| - |suf|] else s
  }

  /** `extractJSON`: trim; if the text opens with a fence, drop one leading
      "```json" (exact case), then one leading "```", then one trailing "```",
      and trim again. */
  function ExtractJson(raw: string): (r: string)
    ensures Trimmed(r)
    ensures !StartsWith(Trim(raw), Fence) ==> r == Trim(raw)
  {
    var trimmed := Trim(raw);
    if StartsWith(trimmed, Fence) then
      Trim(DropSuffix(DropPrefix(DropPrefix(trimmed, JsonFence), Fence), Fence))
    else trimmed
  }

  lemma DropPrefixOf(pre: string, x: string)
    ensures DropPrefix(pre + x, pre) == x
  {
    assert (pre + x)[..|pre|] == pre;
  }

  lemma DropSuffixOf(x: string, suf: string)
    ensures DropSuffix(x + suf, suf) == x
  {
    assert (x + suf)[|x|..] == suf;
  }

  /** A payload that does not itself open with a backtick. */
  predicate PlainPayload(p: string) {
    p != [] && p[0] != '`'
  }

  /** A fenced text with white space around it trims to the fenced text, which
      opens with a fence. */
  lemma FencedIsTrimmed(ws1: string, open: string, p: string, ws2: string)
    requires AllWhitespace(ws1) && AllWhitespace(ws2)
    requires StartsWith(open, Fence) && p != []
    ensures Trim(ws1 + (open + p + Fence) + ws2) == open + p + Fence
    ensures StartsWith(open + p + Fence, Fence)
  {
    var m := open + p + Fence;
    assert m[0] == open[0] == '`';
    assert m[|m| - 1] == '`';
    assert m[..|Fence|] == open[..|Fence|];
    TrimOfPadded(ws1, m, ws2);
  }

  /** After the tag, the payload and the closing fence remain; no second fence
      opens them, and the closing fence goes. */
  lemma PayloadThenFence(p: string)
    requires PlainPayload(p)
    ensures DropSuffix(DropPrefix(p + Fence, Fence), Fence) == p
  {
    assert (p + Fence)[0] == p[0];
    assert !StartsWith(p + Fence, Fence);
    DropSuffixOf(p, Fence);
  }

  /** A "```json" fence, with any white space around it, yields the trimmed payload. */
  lemma ExtractJsonFence(ws1: string, p: string, ws2: string)
    requires AllWhitespace(ws1) && AllWhitespace(ws2) && PlainPayload(p)
    ensures ExtractJson(ws1 + (JsonFence + p + Fence) + ws2) == Trim(p)
  {
    FencedIsTrimmed(ws1, JsonFence, p, ws2);
    JsonFencedPayload(ws1 + (JsonFence + p + Fence) + ws2, p);
  }

  /** A text that trims to a "```json" fence around a payload yields the
      trimmed payload. */
  lemma JsonFencedPayload(raw: string, p: string)
    requires PlainPayload(p) && Trim(raw) == JsonFence + p + Fence
    requires StartsWith(Trim(raw), Fence)
    ensures ExtractJson(raw) == Trim(p)
  {
    assert JsonFence + p + Fence == JsonFence + (p + Fence);
    DropPrefixOf(JsonFence, p + Fence);
    PayloadThenFence(p);
  }

  /** Only a payload spelled "json" right after the fence makes a "```json" opening. */
  lemma NoJsonTag(p: string)
    requires PlainPayload(p) && !StartsWith(p, "json")
    ensures !StartsWith(Fence + p + Fence, JsonFence)
  {
    var m := Fence + p + Fence;
    if |p| >= 4 {
      assert p[..4] != "json";
      var k :| 0 <= k < 4 && p[k] != "json"[k];
      assert m[3 + k] == p[k];
      assert JsonFence[3 + k] == "json"[k];
    } else {
      assert m[3 + |p|] == '`';
      assert JsonFence[3 + |p|] != '`';
    }
  }

  /** A bare fence whose payload does not begin with "json" yields the trimmed
      payload. */
  lemma ExtractBareFence(ws1: string, p: string, ws2: string)
    requires AllWhitespace(ws1) && AllWhitespace(ws2) && PlainPayload(p)
    requires !StartsWith(p, "json")
    ensures ExtractJson(ws1 + (Fence + p + Fence) + ws2) == Trim(p)
  {
    var m := Fence + p + Fence;
    FencedIsTrimmed(ws1, Fence, p, ws2);
    NoJsonTag(p);
    assert m == Fence + (p + Fence);
    DropPrefixOf(Fence, p + Fence);
    assert (p + Fence)[0] == p[0];
    DropSuffixOf(p, Fence);
  }

  /** Any other tag on the opening fence, such as "JSON" or "js", stays in the
      output, on its own line before the payload. */
  lemma OtherTagStays(tag: string, json: string)
    requires tag != [] && !IsWhitespace(tag[0]) && tag[0] != '`' && !StartsWith(tag, "json")
    requires '\n' !in tag
    requires json != [] && Trimmed(json)
    ensures ExtractJson(Fence + tag + "\n" + json + "\n" + Fence) == tag + "\n" + json
  {
    var p := tag + "\n" + json + "\n";
    assert Fence + tag + "\n" + json + "\n" + Fence == [] + (Fence + p + Fence) + [];
    TaggedPayload(tag, json);
    ExtractBareFence([], p, []);
    TrimTaggedPayload(tag, json);
  }

  lemma TaggedPayload(tag: string, json: string)
    requires tag != [] && tag[0] != '`' && !StartsWith(tag, "json") && '\n' !in tag
    ensures PlainPayload(tag + "\n" + json + "\n")
    ensures !StartsWith(tag + "\n" + json + "\n", "json")
  {
    var p := tag + "\n" + json + "\n";
    assert p[0] == tag[0];
    if |tag| >= 4 {
      assert p[..4] == tag[..4];
    } else {
      assert p[|tag|] == '\n';
      assert "json"[|tag|] != '\n';
    }
  }

  lemma TrimTaggedPayload(tag: string, json: string)
    requires tag != [] && !IsWhitespace(tag[0])
    requires json != [] && Trimmed(json)
    ensures Trim(tag + "\n" + json + "\n") == tag + "\n" + json
  {
    var core := tag + "\n" + json;
    assert core[0] == tag[0] && core[|core| - 1] == json[|json| - 1];
    assert tag + "\n" + json + "\n" == [] + core + "\n";
    TrimOfPadded([], core, "\n");
  }

  // ---------------------------------------------------------------------------
  // The request fields

  /** `body.key?.trim()`: the trimmed string, `undefined` when the member is
      absent or null, or a thrown TypeError for any other value. */
  datatype FieldRead = Absent | Present(text: string) | Throws

  function ReadField(body: Json, key: string): (r: FieldRead)
    requires !body.JNull?
    ensures r.Present? <==> Member(body, key).Some? && Member(body, key).value.JString?
    ensures r.Present? ==> r.text == Trim(Member(body, key).value.s)
    ensures r.Throws? <==> Member(body, key).Some? && !Member(body, key).value.JString?
                             && !Member(body, key).value.JNull?
  {
    match Member(body, key)
    case None => Absent
    case Some(v) =>
      if v.JNull? then Absent
      else if v.JString? then Present(Trim(v.s))
      else Throws
  }

  /** `!x` on the result of a read: absent, or the empty string. */
  predicate Falsy(f: FieldRead) {
    f.Absent? || (f.Present? && f.text == [])
  }

  datatype Fields = Fields(goal: string, users: string, constraints: string, templateType: string)

  datatype ResponseBody = ErrorMessage(error: string) | Created(record: SpecRecord)
  datatype Response = Response(status: nat, body: ResponseBody)

  const MsgRequired: string := "goal, users and constraints are required"
  const MsgParse: string := "Failed to parse model response as JSON"
  const MsgStructure: string := "Invalid structure from model"
  const MsgInsufficient: string := "Model returned insufficient valid tasks"
  const MsgInternal: string := "Internal server error"

  function Fail(status: nat, message: string): Response {
    Response(status, ErrorMessage(message))
  }

  /** The body could not be read, or reading a field threw. */
  predicate ReadThrows(body: Option<Json>) {
    body.None? || body.value.JNull?
    || ReadField(body.value, "goal").Throws? || ReadField(body.value, "users").Throws?
    || ReadField(body.value, "constraints").Throws? || ReadField(body.value, "templateType").Throws?
  }

  /** The first step of the handler: all four fields are read, then the three
      required ones are checked. `body` is `None` when the request body is not
      JSON at all. */
  function ReadRequest(body: Option<Json>): (r: Result<Fields, Response>)
    ensures r.Failure? ==> r.error == Fail(500, MsgInternal) || r.error == Fail(400, MsgRequired)
    ensures r == Failure(Fail(500, MsgInternal)) <==> ReadThrows(body)
    ensures r == Failure(Fail(400, MsgRequired)) <==>
              !ReadThrows(body)
              && (Falsy(ReadField(body.value, "goal")) || Falsy(ReadField(body.value, "users"))
                  || Falsy(ReadField(body.value, "constraints")))
    ensures r.Success? ==>
              && ReadField(body.value, "goal") == Present(r.value.goal) && r.value.goal != []
              && ReadField(body.value, "users") == Present(r.value.users) && r.value.users != []
              && ReadField(body.value, "constraints") == Present(r.value.constraints)
              && r.value.constraints != []
    ensures r.Success? ==>
              r.value.templateType ==
                (if Falsy(ReadField(body.value, "templateType")) then "default"
                 else ReadField(body.value, "templateType").text)
  {
    if body.None? || body.value.JNull? then Failure(Fail(500, MsgInternal))
    else
      var goal := ReadField(body.value, "goal");
      var users := ReadField(body.value, "users");
      var constraints := ReadField(body.value, "constraints");
      var templateType := ReadField(body.value, "templateType");
      if goal.Throws? || users.Throws? || constraints.Throws? || templateType.Throws? then
        Failure(Fail(500, MsgInternal))
      else if Falsy(goal) || Falsy(users) || Falsy(constraints) then
        Failure(Fail(400, MsgRequired))
      else
        var tt := if Falsy(templateType) then "default" else templateType.text;
        Success(Fields(goal.text, users.text, constraints.text, tt))
  }

  // ---------------------------------------------------------------------------
  // The structural gate

  /** The route's own `validGroups` list. */
  const ValidGroups: seq<string> := ["Frontend", "Backend", "Database", "DevOps"]

  /** The task filter: a truthy entry with a string `id`, a string `title` and a
      `group` among the valid literals. */
  predicate IsValidTask(t: Json) {
    && Truthy(t)
    && HasStringMember(t, "id")
    && HasStringMember(t, "title")
    && Member(t, "group").Some? && Member(t, "group").value.JString?
    && Member(t, "group").value.s in ValidGroups
  }

  lemma ValidGroupsAreGroups()
    ensures ValidGroups == PromptGroupLiterals
    ensures forall s :: s in ValidGroups <==> ParseGroup(s).Some?
  {
    GroupLiteralsAgree();
  }

  function ToTask(t: Json): (r: Task)
    requires IsValidTask(t)
    ensures JString(r.id) == t.fields["id"] && JString(r.title) == t.fields["title"]
    ensures JString(GroupName(r.group)) == t.fields["group"]
  {
    ValidGroupsAreGroups();
    var g := ParseGroup(t.fields["group"].s);
    Task(t.fields["id"].s, t.fields["title"].s, g.value)
  }

  /** `parsed.tasks.filter(...)`, each survivor read as a task. */
  function ValidTasks(items: seq<Json>): (r: seq<Task>)
    ensures |r| <= |items|
  {
    if items == [] then []
    else if IsValidTask(items[0]) then [ToTask(items[0])] + ValidTasks(items[1..])
    else ValidTasks(items[1..])
  }

  /** The parts of a well-shaped model answer. */
  datatype Shape = Shape(title: string, userStories: seq<Json>, tasks: seq<Json>, risks: seq<Json>)

  /** The shape check. `null` has no members, so reading `parsed.title` throws
      and the handler answers 500; any other value without a string title or
      with a non-array list is an invalid structure. */
  function CheckShape(parsed: Json): (r: Result<Shape, Response>)
    ensures parsed.JNull? <==> r == Failure(Fail(500, MsgInternal))
    ensures r.Failure? ==> r.error == Fail(500, MsgInternal) || r.error == Fail(502, MsgStructure)
    ensures r.Success? <==>
              && parsed.JObject?
              && "title" in parsed.fields && parsed.fields["title"].JString?
              && "userStories" in parsed.fields && parsed.fields["userStories"].JArray?
              && "tasks" in parsed.fields && parsed.fields["tasks"].JArray?
              && "risks" in parsed.fields && parsed.fields["risks"].JArray?
    ensures r.Success? ==>
              && JString(r.value.title) == parsed.fields["title"]
              && JArray(r.value.userStories) == parsed.fields["userStories"]
              && JArray(r.value.tasks) == parsed.fields["tasks"]
              && JArray(r.value.risks) == parsed.fields["risks"]
  {
    if parsed.JNull? then Failure(Fail(500, MsgInternal))
    else if !HasStringMember(parsed, "title") || !HasArrayMember(parsed, "userStories")
         || !HasArrayMember(parsed, "tasks") || !HasArrayMember(parsed, "risks") then
      Failure(Fail(502, MsgStructure))
    else
      Success(Shape(parsed.fields["title"].s, parsed.fields["userStories"].items,
                    parsed.fields["tasks"].items, parsed.fields["risks"].items))
  }

  /** The fewest valid tasks the handler accepts. */
  const MinTasks: nat := 5

  // ---------------------------------------------------------------------------
  // The handler

  /** What the handler depends on outside this file: the key, the system prompt,
      the chat service, `JSON.parse` (`None` when it throws) and the clock. */
  datatype Env = Env(
    apiKey: Option<string>,
    systemPrompt: string,
    service: seq<Ai.Message> -> Reply,
    parse: string -> Option<Json>,
    now: nat)

  /** The record `create` stores for an accepted answer. */
  function Record(f: Fields, shape: Shape, store: Store, now: nat): SpecRecord {
    NewRecord(FreshId(store),
              SpecInput(f.goal, f.users, f.constraints, shape.title,
                        Some(shape.userStories), Some(ValidTasks(shape.tasks)), Some(shape.risks)),
              now)
  }

  /** What the handler makes of the generator's outcome: a failed call is an
      internal error, text `JSON.parse` rejects is a parse error, and a parsed
      value goes through the shape check. */
  function Interpret(reply: Result<string, AiError>, parse: string -> Option<Json>): (r: Result<Shape, Response>)
    ensures reply.Failure? ==> r == Failure(Fail(500, MsgInternal))
    ensures reply.Success? && parse(ExtractJson(reply.value)).None? ==> r == Failure(Fail(502, MsgParse))
    ensures reply.Success? && parse(ExtractJson(reply.value)).Some? ==>
              r == CheckShape(parse(ExtractJson(reply.value)).value)
    ensures r.Success? ==> reply.Success? && parse(ExtractJson(reply.value)).Some?
    ensures WellFormedAnswer(r)
  {
    match reply
    case Failure(_) => Failure(Fail(500, MsgInternal))
    case Success(raw) =>
      match parse(ExtractJson(raw))
      case None => Failure(Fail(502, MsgParse))
      case Some(parsed) => CheckShape(parsed)
  }

  /** The generator asked with a user prompt, and its reply interpreted. Only
      the user prompt is sanitised on the way out; the system prompt is sent as
      is. A failed call is a 500, text `JSON.parse` rejects is a 502 parse
      error, `null` is a 500, any other wrong shape is a 502 structure error,
      and a well-shaped reply gets through as its shape. */
  function Ask(prompt: string, env: Env): (r: Result<Shape, Response>)
    ensures WellFormedAnswer(r)
    ensures var reply := GenerateSpec(env.apiKey, env.systemPrompt, prompt, env.service);
            && (reply.Failure? ==> r == Failure(Fail(500, MsgInternal)))
            && (reply.Success? ==>
                  var parsed := env.parse(ExtractJson(reply.value));
                  && (parsed.None? ==> r == Failure(Fail(502, MsgParse)))
                  && (parsed == Some(JNull) ==> r == Failure(Fail(500, MsgInternal)))
                  && (parsed.Some? && !parsed.value.JNull? && CheckShape(parsed.value).Failure? ==>
                        r == Failure(Fail(502, MsgStructure)))
                  && (parsed.Some? && CheckShape(parsed.value).Success? ==> r == CheckShape(parsed.value)))
  {
    Interpret(GenerateSpec(env.apiKey, env.systemPrompt, prompt, env.service), env.parse)
  }

  /** Every way the answer can fail is a 500 or 502 error message. */
  predicate WellFormedAnswer(answer: Result<Shape, Response>) {
    answer.Failure? ==> answer.error.status in {500, 502} && answer.error.body.ErrorMessage?
  }

  /** Everything after the field check, given what the model's answer came to. */
  function Generate(f: Fields, answer: Result<Shape, Response>, now: nat, store: Store): (out: (Response, Store))
    requires WellFormedAnswer(answer)
    ensures out.0.status in {201, 500, 502}
    ensures out.0.status != 201 ==> out.1 == store && out.0.body.ErrorMessage?
    ensures answer.Failure? ==> out == (answer.error, store)
    ensures out.0.status == 201 <==> answer.Success? && |ValidTasks(answer.value.tasks)| >= MinTasks
  {
    match answer
    case Failure(resp) => (resp, store)
    case Success(shape) => Accept(f, shape, store, now)
  }

  /** The count gate and the save: too few valid tasks is a 502 that stores
      nothing; otherwise the record is created and the store trimmed. */
  function Accept(f: Fields, shape: Shape, store: Store, now: nat): (out: (Response, Store))
    ensures out.0.status in {201, 502}
    ensures out.0.status == 502 ==> out == (Fail(502, MsgInsufficient), store)
    ensures out.0.status == 201 <==> |ValidTasks(shape.tasks)| >= MinTasks
  {
    if |ValidTasks(shape.tasks)| < MinTasks then (Fail(502, MsgInsufficient), store)
    else
      var record := Record(f, shape, store, now);
      (Response(201, Created(record)), Retain(store + [record]))
  }

  /** `POST`: the response and the store afterwards. */
  function Post(body: Option<Json>, env: Env, store: Store): (out: (Response, Store))
    ensures out.0.status in {201, 400, 500, 502}
    ensures out.0.status != 201 ==> out.1 == store && out.0.body.ErrorMessage?
    ensures out.0.status == 400 <==> ReadRequest(body) == Failure(Fail(400, MsgRequired))
  {
    match ReadRequest(body)
    case Failure(resp) => (resp, store)
    case Success(f) => Generate(f, Ask(PromptOf(f), env), env.now, store)
  }

  // ---------------------------------------------------------------------------
  // The task filter

  /** The filter keeps survivors in order: filtering a concatenation filters
      each part. */
  lemma {:induction false} ValidTasksAppend(a: seq<Json>, b: seq<Json>)
    ensures ValidTasks(a + b) == ValidTasks(a) + ValidTasks(b)
  {
    if a != [] {
      assert (a + b)[0] == a[0];
      assert (a + b)[1..] == a[1..] + b;
      ValidTasksAppend(a[1..], b);
    } else {
      assert a + b == b;
    }
  }

  /** Every survivor comes from a valid entry, and every valid entry survives. */
  lemma {:induction false} ValidTasksMembers(items: seq<Json>)
    ensures forall t :: t in ValidTasks(items) ==>
              exists j :: 0 <= j < |items| && IsValidTask(items[j]) && ToTask(items[j]) == t
    ensures forall j :: 0 <= j < |items| && IsValidTask(items[j]) ==> ToTask(items[j]) in ValidTasks(items)
  {
    if items != [] {
      ValidTasksMembers(items[1..]);
      forall t | t in ValidTasks(items)
        ensures exists j :: 0 <= j < |items| && IsValidTask(items[j]) && ToTask(items[j]) == t
      {
        if IsValidTask(items[0]) && t == ToTask(items[0]) {
        } else {
          var j :| 0 <= j < |items[1..]| && IsValidTask(items[1..][j]) && ToTask(items[1..][j]) == t;
          assert items[j + 1] == items[1..][j];
        }
      }
      forall j | 0 <= j < |items| && IsValidTask(items[j]) ensures ToTask(items[j]) in ValidTasks(items) {
        if j > 0 {
          assert items[j] == items[1..][j - 1];
        }
      }
    }
  }

  /** Nothing is dropped exactly when every entry is valid. */
  lemma {:induction false} ValidTasksKeepAll(items: seq<Json>)
    ensures |ValidTasks(items)| == |items| <==> forall j :: 0 <= j < |items| ==> IsValidTask(items[j])
  {
    if items != [] {
      ValidTasksKeepAll(items[1..]);
      if forall j :: 0 <= j < |items| ==> IsValidTask(items[j]) {
        assert forall j :: 0 <= j < |items[1..]| ==> IsValidTask(items[1..][j]) by {
          forall j | 0 <= j < |items[1..]| ensures IsValidTask(items[1..][j]) {
            assert items[1..][j] == items[j + 1];
          }
        }
      } else if IsValidTask(items[0]) {
        var j :| 0 < j < |items| && !IsValidTask(items[j]);
        assert items[1..][j - 1] == items[j];
      }
    }
  }

  /** A task as the generator is asked to write it. */
  function TaskJson(t: Task): Json {
    JObject(map["id" := JString(t.id), "title" := JString(t.title), "group" := JString(GroupName(t.group))])
  }

  function TasksJson(tasks: seq<Task>): (r: seq<Json>)
    ensures |r| == |tasks|
  {
    if tasks == [] then [] else [TaskJson(tasks[0])] + TasksJson(tasks[1..])
  }

  /** A task written out as the generator is asked to write it passes the filter
      and reads back as itself. */
  lemma TaskJsonRoundTrip(t: Task)
    ensures IsValidTask(TaskJson(t)) && ToTask(TaskJson(t)) == t
  {
    var j := TaskJson(t);
    GroupLiteralsRoundTrip(t.group);
    ValidGroupsAreGroups();
    assert Member(j, "group") == Some(JString(GroupName(t.group)));
    assert IsValidTask(j);
    assert ParseGroup(j.fields["group"].s) == Some(t.group);
  }

  /** A list of well-formed tasks passes the filter unchanged. */
  lemma {:induction false} ValidTasksRoundTrip(tasks: seq<Task>)
    ensures ValidTasks(TasksJson(tasks)) == tasks
  {
    if tasks != [] {
      TaskJsonRoundTrip(tasks[0]);
      ValidTasksRoundTrip(tasks[1..]);
    }
  }

  /** The filter does not look at ids beyond their type: an empty id and an id
      shared by two tasks both pass. */
  lemma FilterAcceptsSharedAndEmptyIds()
    ensures var a := Task("", "Login form", Frontend);
            var b := Task("", "Login API", Backend);
            ValidTasks([TaskJson(a), TaskJson(b)]) == [a, b]
  {
    var a := Task("", "Login form", Frontend);
    var b := Task("", "Login API", Backend);
    ValidTasksRoundTrip([a, b]);
    assert TasksJson([a, b]) == [TaskJson(a), TaskJson(b)];
  }

  /** A lower-case group name, a numeric id or a `null` entry is dropped. */
  lemma FilterDropsMalformed(t: Task)
    ensures ValidTasks([JObject(TaskJson(t).fields["group" := JString("frontend")])]) == []
    ensures ValidTasks([JObject(TaskJson(t).fields["id" := JNumber(1)])]) == []
    ensures ValidTasks([JNull]) == []
  {
    ValidGroupsAreGroups();
    assert ParseGroup("frontend").None?;
  }

  // ---------------------------------------------------------------------------
  // The handler as a whole

  /** The user prompt the handler builds from accepted fields. */
  function PromptOf(f: Fields): string {
    BuildUserPrompt(f.goal, f.users, f.constraints, f.templateType)
  }

  /** Of the two prompts only the user prompt is sanitised: an accepted answer
      is the reply to the system prompt as given and the sanitised user prompt. */
  lemma OnlyUserPromptSanitised(prompt: string, env: Env)
    requires Ask(prompt, env).Success?
    ensures var sent := ChatMessages(env.systemPrompt, prompt);
            && sent == [Message(System, env.systemPrompt), Message(User, Sanitize(prompt))]
            && env.service(sent).Replied? && env.service(sent).content.Some?
            && Ask(prompt, env) == CheckShape(env.parse(ExtractJson(env.service(sent).content.value)).value)
  {
  }

  /** Any failure answers with an error message and leaves the store alone. */
  lemma PostFailureKeepsStore(body: Option<Json>, env: Env, store: Store)
    ensures var out := Post(body, env, store);
            out.0.status != 201 ==> out.1 == store && out.0.body.ErrorMessage?
  {
  }

  /** A request that passes the field check is answered by `Generate`, with the
      generator asked for the prompt built from the fields. */
  lemma PostIsGenerate(body: Option<Json>, env: Env, store: Store)
    requires ReadRequest(body).Success?
    ensures var f := ReadRequest(body).value;
            Post(body, env, store) == Generate(f, Ask(PromptOf(f), env), env.now, store)
  {
  }

  /** The handler's error for an accepted request follows the answer: the
      failed call, the rejected parse, the `null` reply and the wrong shape each
      reach the client as their own status and message, and the store is kept. */
  lemma PostAnswerErrors(body: Option<Json>, env: Env, store: Store)
    requires ReadRequest(body).Success?
    ensures var f := ReadRequest(body).value;
            var reply := GenerateSpec(env.apiKey, env.systemPrompt, PromptOf(f), env.service);
            var out := Post(body, env, store);
            && (reply.Failure? ==> out == (Fail(500, MsgInternal), store))
            && (reply.Success? ==>
                  var parsed := env.parse(ExtractJson(reply.value));
                  && (parsed.None? ==> out == (Fail(502, MsgParse), store))
                  && (parsed == Some(JNull) ==> out == (Fail(500, MsgInternal), store))
                  && (parsed.Some? && !parsed.value.JNull? && CheckShape(parsed.value).Failure? ==>
                        out == (Fail(502, MsgStructure), store))
                  && (parsed.Some? && CheckShape(parsed.value).Success? ==>
                        out == Generate(f, CheckShape(parsed.value), env.now, store)))
  {
    var f := ReadRequest(body).value;
    PostIsGenerate(body, env, store);
  }

  /** A created specification holds the fields, the model's title and lists,
      and the tasks that passed the filter, at least five of them; it gets a
      fresh id and the current time, and the store is trimmed with it. */
  lemma GenerateCreated(f: Fields, answer: Result<Shape, Response>, now: nat, store: Store)
    requires WellFormedAnswer(answer) && Generate(f, answer, now, store).0.status == 201
    ensures answer.Success?
    ensures var out := Generate(f, answer, now, store);
            var shape := answer.value;
            && out.0.body.Created?
            && var x := out.0.body.record;
            && x.goal == f.goal && x.users == f.users && x.constraints == f.constraints
            && x.title == shape.title && x.userStories == shape.userStories && x.risks == shape.risks
            && x.tasks == ValidTasks(shape.tasks) && |x.tasks| >= MinTasks
            && x.id !in Ids(store) && x.createdAt == now
            && out.1 == Retain(store + [x])
  {
    var x := Record(f, answer.value, store, now);
    assert x.id == FreshId(store);
  }

  /** The same at the level of the request: the stored goal, users and
      constraints are the trimmed values read from the body. */
  lemma PostCreated(body: Option<Json>, env: Env, store: Store)
    requires ReadRequest(body).Success? && Post(body, env, store).0.status == 201
    ensures var out := Post(body, env, store);
            && out.0.body.Created?
            && ReadField(body.value, "goal") == Present(out.0.body.record.goal)
            && ReadField(body.value, "users") == Present(out.0.body.record.users)
            && ReadField(body.value, "constraints") == Present(out.0.body.record.constraints)
  {
    var f := ReadRequest(body).value;
    PostIsGenerate(body, env, store);
    GenerateCreated(f, Ask(PromptOf(f), env), env.now, store);
  }

  /** A successful request leaves the store at five specifications or fewer,
      and ids stay distinct. */
  lemma GenerateKeepsStoreSmall(f: Fields, answer: Result<Shape, Response>, now: nat, store: Store)
    requires WellFormedAnswer(answer) && UniqueIds(store)
    ensures var out := Generate(f, answer, now, store);
            && UniqueIds(out.1)
            && (out.0.status == 201 ==> |out.1| == Min(|store| + 1, Kept))
            && (|store| <= Kept ==> |out.1| <= Kept)
  {
    var out := Generate(f, answer, now, store);
    if out.0.status == 201 {
      GenerateCreated(f, answer, now, store);
      var x := out.0.body.record;
      FreshKeepsUnique(store, x);
      RetainSize(store + [x]);
    }
  }

  /** A rejected request is answered before the generator is asked: the answer
      does not depend on the environment. */
  lemma PostRejectsBeforeGenerating(body: Option<Json>, env1: Env, env2: Env, store: Store)
    requires ReadRequest(body).Failure?
    ensures Post(body, env1, store) == Post(body, env2, store) == (ReadRequest(body).error, store)
    ensures Post(body, env1, store).0.status in {400, 500}
  {
  }

  /** Once the answer has the right shape, the count alone decides: five valid
      tasks or more create a specification, fewer answer 502. */
  lemma GenerateCountGate(f: Fields, shape: Shape, now: nat, store: Store)
    ensures var n := |ValidTasks(shape.tasks)|;
            var out := Generate(f, Success(shape), now, store);
            && (n >= MinTasks <==> out.0.status == 201)
            && (n < MinTasks <==> out == (Fail(502, MsgInsufficient), store))
  {
  }

  /** When the clock has moved past every stored specification, the new one
      survives the trim and the history lists it. */
  lemma GenerateShowsInHistory(f: Fields, answer: Result<Shape, Response>, now: nat, store: Store)
    requires WellFormedAnswer(answer) && UniqueIds(store) && |store| <= Kept
    requires forall y :: y in store ==> y.createdAt < now
    requires Generate(f, answer, now, store).0.status == 201
    ensures var out := Generate(f, answer, now, store);
            && out.0.body.Created?
            && out.0.body.record in out.1
            && Item(out.0.body.record) in History(out.1)
  {
    var out := Generate(f, answer, now, store);
    GenerateCreated(f, answer, now, store);
    NewestAddedIsListed(store, out.0.body.record);
  }
}

=== FILE: history_route.dfy ===
/** `GET /api/history`: the five newest stored specifications, newest first,
    each reduced to its id, title and creation time. A store that cannot be
    reached is `None`. */
module HistoryRoute {
  import opened Wrappers
  import opened SpecModel
  import opened SpecStore
  import GenerateRoute

  /** The answer: the listed entries, or an error with its status. */
  datatype Listing = Listed(items: seq<HistoryItem>) | Failed(status: nat, error: string)

  const MsgFetch: string := "Failed to fetch history"

  function Get(db: Option<Store>): (r: Listing)
    ensures db.None? <==> r == Failed(500, MsgFetch)
    ensures db.Some? ==> r.Listed? && |r.items| == Min(|db.value|, Kept)
    ensures db.Some? ==> forall i, j :: 0 <= i < j < |r.items| ==> r.items[i].createdAt >= r.items[j].createdAt
    ensures db.Some? ==> forall i :: 0 <= i < |r.items| ==> exists x :: x in db.value && r.items[i] == Item(x)
    ensures db.Some? && UniqueIds(db.value) ==>
              forall i, j :: 0 <= i < j < |r.items| ==> r.items[i].id != r.items[j].id
  {
    match db
    case None => Failed(500, MsgFetch)
    case Some(s) =>
      HistoryShape(s);
      Listed(History(s))
  }

  /** A stored specification the listing leaves out is no newer than any it
      shows. */
  lemma GetShowsNewest(s: Store, d: SpecRecord, i: int)
    requires UniqueIds(s) && d in s && Item(d) !in Get(Some(s)).items
    requires 0 <= i < |Get(Some(s)).items|
    ensures d.createdAt <= Get(Some(s)).items[i].createdAt
  {
    HistoryIsTopFive(s, d, i);
  }

  /** After a generate request succeeds on a store kept by the route, with the
      clock past every stored time, the history lists the new specification. */
  lemma GenerateThenList(f: GenerateRoute.Fields, answer: Result<GenerateRoute.Shape, GenerateRoute.Response>,
                         now: nat, store: Store)
    requires GenerateRoute.WellFormedAnswer(answer)
    requires UniqueIds(store) && |store| <= Kept
    requires forall y :: y in store ==> y.createdAt < now
    requires GenerateRoute.Generate(f, answer, now, store).0.status == 201
    ensures var out := GenerateRoute.Generate(f, answer, now, store);
            out.0.body.Created? && Item(out.0.body.record) in Get(Some(out.1)).items
  {
    var out := GenerateRoute.Generate(f, answer, now, store);
    GenerateRoute.GenerateShowsInHistory(f, answer, now, store);
    ListingIsHistory(out.1);
  }

  lemma ListingIsHistory(s: Store)
    ensures Get(Some(s)) == Listed(History(s))
  {
  }

  /** After a successful generate request the history lists every stored
      specification, because the trim leaves at most five. */
  lemma ListsEveryStored(f: GenerateRoute.Fields, answer: Result<GenerateRoute.Shape, GenerateRoute.Response>,
                         now: nat, store: Store)
    requires GenerateRoute.WellFormedAnswer(answer) && UniqueIds(store)
    requires GenerateRoute.Generate(f, answer, now, store).0.status == 201
    ensures var after := GenerateRoute.Generate(f, answer, now, store).1;
            forall x :: x in after ==> Item(x) in Get(Some(after)).items
  {
    var after := GenerateRoute.Generate(f, answer, now, store).1;
    GenerateRoute.GenerateKeepsStoreSmall(f, answer, now, store);
    ListingIsHistory(after);
    SmallStoreListedInFull(after);
  }

  lemma SmallStoreListedInFull(s: Store)
    requires |s| <= Kept
    ensures forall x :: x in s ==> Item(x) in History(s)
  {
    forall x | x in s ensures Item(x) in History(s) {
      HistoryListsAll(s, x);
    }
  }
}

=== FILE: json_value.dfy ===
/** The values `JSON.parse` can return, and the two JavaScript operations the
    server applies to them: truthiness and property access. */
module JsonValue {
  import opened Wrappers

  /** A parsed JSON value. Numbers are kept as integers: no modelled decision
      depends on a fractional part. An object maps each key to its last value. */
  datatype Json =
    | JNull
    | JBool(b: bool)
    | JNumber(n: int)
    | JString(s: string)
    | JArray(items: seq<Json>)
    | JObject(fields: map<string, Json>)

  /** JavaScript truthiness of a parsed value (`null`, `false`, `0` and `""` are falsy). */
  predicate Truthy(j: Json) {
    match j
    case JNull => false
    case JBool(b) => b
    case JNumber(n) => n != 0
    case JString(s) => s != ""
    case _ => true
  }

  /** `j.key` on a value that is not `null`, for the keys the handler reads
      (`title`, `userStories`, `tasks`, `risks`, `id`, `group`, the request
      fields), none of which is an inherited property: an object's own member,
      and `undefined` (here `None`) for a missing key or any other kind of
      value. On `null` the access throws, so callers rule that case out first. */
  function Member(j: Json, key: string): (r: Option<Json>)
    requires !j.JNull?
    ensures r.Some? <==> j.JObject? && key in j.fields
    ensures r.Some? ==> r.value == j.fields[key]
  {
    if j.JObject? && key in j.fields then Some(j.fields[key]) else None
  }

  /** `typeof j.key === "string"`. */
  predicate HasStringMember(j: Json, key: string)
    requires !j.JNull?
  {
    var m := Member(j, key);
    m.Some? && m.value.JString?
  }

  /** `Array.isArray(j.key)`. */
  predicate HasArrayMember(j: Json, key: string)
    requires !j.JNull?
  {
    var m := Member(j, key);
    m.Some? && m.value.JArray?
  }
}

=== FILE: markdown_export.dfy ===
/** The deterministic Markdown export of the board (`generateMarkdown`) and the
    download file name. */
module MarkdownExport {
  import opened Text
  import opened SpecModel
  import opened TaskBoard

  /** The part of a specification the export reads. */
  datatype SpecSummary = SpecSummary(title: string, goal: string, userStories: seq<string>, risks: seq<string>)

  /** `items.map(x => "- " + x)`. */
  function Bullets(items: seq<string>): (r: seq<string>)
    ensures |r| == |items|
    ensures forall i :: 0 <= i < |items| ==> r[i] == "- " + items[i]
  {
    if items == [] then [] else ["- " + items[0]] + Bullets(items[1..])
  }

  function Titles(tasks: seq<Task>): (r: seq<string>)
    ensures |r| == |tasks|
    ensures forall i :: 0 <= i < |tasks| ==> r[i] == tasks[i].title
  {
    if tasks == [] then [] else [tasks[0].title] + Titles(tasks[1..])
  }

  /** The block of group `g`: its heading, a blank line, and one bullet per task
      of the column in board order; the empty string when the column is empty. */
  function GroupSection(tasks: seq<Task>, g: Group): string {
    var column := Column(tasks, g);
    if |column| == 0 then ""
    else Line("## " + GroupName(g), Line("", Join(Bullets(Titles(column)), "\n")))
  }

  function Sections(tasks: seq<Task>, groups: seq<Group>): (r: seq<string>)
    ensures |r| == |groups|
    ensures forall i :: 0 <= i < |groups| ==> r[i] == GroupSection(tasks, groups[i])
  {
    if groups == [] then [] else [GroupSection(tasks, groups[0])] + Sections(tasks, groups[1..])
  }

  /** `.filter(Boolean)` on strings: drops the empty ones. */
  function NonEmpty(xs: seq<string>): seq<string> {
    if xs == [] then []
    else if xs[0] == "" then NonEmpty(xs[1..])
    else [xs[0]] + NonEmpty(xs[1..])
  }

  function GroupedTasks(tasks: seq<Task>): string {
    Join(NonEmpty(Sections(tasks, TaskGroups)), "\n\n")
  }

  /** `generateMarkdown(spec, tasks)`: the template literal, line by line. */
  function Markdown(spec: SpecSummary, tasks: seq<Task>): string {
    Layout(spec.title, spec.goal, Join(Bullets(spec.userStories), "\n"),
           GroupedTasks(tasks), Join(Bullets(spec.risks), "\n"))
  }

  function Layout(title: string, goal: string, stories: string, grouped: string, risks: string): string {
    Line("# " + title,
    Line("",
    Line("## Goal",
    Line(goal,
    Line("",
    Line("## User Stories",
    Line(stories,
    Line("",
    Line(grouped,
    Line("",
    Line("## Risks",
    Line(risks, ""))))))))))))
  }

  /** The download name: each white-space run of the title becomes `_`, then `.md`. */
  function DownloadName(title: string): (r: string)
    ensures EndsWith(r, ".md")
    ensures NoWhitespace(r)
    ensures NoWhitespace(title) ==> r == title + ".md"
  {
    var stem := ReplaceWhitespaceRuns(title);
    assert (stem + ".md")[|stem|..] == ".md";
    stem + ".md"
  }

  // ---------------------------------------------------------------------------
  // The export as lines: an independent description of the layout

  /** The groups of `groups` whose column is not empty, in the order given. */
  function PresentGroups(tasks: seq<Task>, groups: seq<Group>): (r: seq<Group>)
    ensures forall g :: g in r <==> g in groups && Column(tasks, g) != []
    ensures |r| <= |groups|
    ensures forall i, j :: 0 <= i < j < |r| ==> InOrder(groups, r[i], r[j])
  {
    if groups == [] then []
    else
      var rest := PresentGroups(tasks, groups[1..]);
      InOrderTail(groups, rest);
      if Column(tasks, groups[0]) == [] then rest
      else
        InOrderHead(groups, rest);
        [groups[0]] + rest
  }

  /** `a` comes before `b` somewhere in `groups`. */
  predicate InOrder(groups: seq<Group>, a: Group, b: Group) {
    exists p, q :: 0 <= p < q < |groups| && groups[p] == a && groups[q] == b
  }

  /** Order in the tail of a list is order in the list. */
  lemma InOrderTail(groups: seq<Group>, rest: seq<Group>)
    requires groups != []
    requires forall i, j :: 0 <= i < j < |rest| ==> InOrder(groups[1..], rest[i], rest[j])
    ensures forall i, j :: 0 <= i < j < |rest| ==> InOrder(groups, rest[i], rest[j])
  {
    forall i, j | 0 <= i < j < |rest| ensures InOrder(groups, rest[i], rest[j]) {
      var p, q :| 0 <= p < q < |groups[1..]| && groups[1..][p] == rest[i] && groups[1..][q] == rest[j];
      assert groups[p + 1] == rest[i] && groups[q + 1] == rest[j];
    }
  }

  /** The head of a list comes before everything in its tail. */
  lemma InOrderHead(groups: seq<Group>, rest: seq<Group>)
    requires groups != []
    requires forall g :: g in rest ==> g in groups[1..]
    requires forall i, j :: 0 <= i < j < |rest| ==> InOrder(groups, rest[i], rest[j])
    ensures forall i, j :: 0 <= i < j < |[groups[0]] + rest| ==> InOrder(groups, ([groups[0]] + rest)[i], ([groups[0]] + rest)[j])
  {
    var r := [groups[0]] + rest;
    forall i, j | 0 <= i < j < |r| ensures InOrder(groups, r[i], r[j]) {
      if i == 0 {
        assert r[j] == rest[j - 1] && rest[j - 1] in rest;
        var q :| 0 <= q < |groups[1..]| && groups[1..][q] == r[j];
        assert groups[0] == r[0] && groups[q + 1] == r[j];
      } else {
        assert r[i] == rest[i - 1] && r[j] == rest[j - 1];
      }
    }
  }

  /** The lines of one present group's block. */
  function BlockLines(tasks: seq<Task>, g: Group): seq<string> {
    ["## " + GroupName(g), ""] + Bullets(Titles(Column(tasks, g)))
  }

  /** Line groups laid one after another with a blank line between neighbours;
      no group at all is a single blank line. */
  function Stack(groups: seq<seq<string>>): seq<string> {
    if |groups| == 0 then [""]
    else if |groups| == 1 then groups[0]
    else groups[0] + [""] + Stack(groups[1..])
  }

  function BlocksLines(tasks: seq<Task>, groups: seq<Group>): (r: seq<seq<string>>)
    ensures |r| == |groups|
    ensures forall i :: 0 <= i < |groups| ==> r[i] == BlockLines(tasks, groups[i])
  {
    if groups == [] then [] else [BlockLines(tasks, groups[0])] + BlocksLines(tasks, groups[1..])
  }

  /** A list rendered as bullet lines; an empty list leaves one empty line. */
  function ListLines(items: seq<string>): seq<string> {
    if items == [] then [""] else Bullets(items)
  }

  predicate NoBreak(s: string) { '\n' !in s }

  predicate NoBreaks(xs: seq<string>) {
    forall i :: 0 <= i < |xs| ==> '\n' !in xs[i]
  }

  /** Texts none of whose pieces holds a line break. */
  predicate SingleLineTexts(spec: SpecSummary, tasks: seq<Task>) {
    && NoBreak(spec.title) && NoBreak(spec.goal)
    && NoBreaks(spec.userStories) && NoBreaks(spec.risks)
    && SingleLineTitles(tasks)
  }

  predicate SingleLineTitles(tasks: seq<Task>) {
    forall t :: t in tasks ==> NoBreak(t.title)
  }

  /** The export read line by line: heading, Goal, User Stories, one block per
      non-empty group in the fixed order, Risks, and a final line break. */
  function ExportLines(spec: SpecSummary, tasks: seq<Task>): seq<string> {
    ["# " + spec.title, "", "## Goal", spec.goal, "", "## User Stories"]
    + ListLines(spec.userStories) + [""]
    + Stack(BlocksLines(tasks, PresentGroups(tasks, TaskGroups)))
    + ["", "## Risks"] + ListLines(spec.risks) + [""]
  }

  // ---------------------------------------------------------------------------
  // Lemmas

  lemma {:induction false} BulletsNoBreak(items: seq<string>)
    requires NoBreaks(items)
    ensures NoBreaks(Bullets(items))
  {
    forall i | 0 <= i < |items| ensures '\n' !in Bullets(items)[i] {
      assert Bullets(items)[i] == "- " + items[i];
    }
  }

  lemma ListLinesOfJoin(items: seq<string>)
    requires NoBreaks(items)
    ensures SplitLines(Join(Bullets(items), "\n")) == ListLines(items)
  {
    if items != [] {
      BulletsNoBreak(items);
      SplitJoinLines(Bullets(items));
    }
  }

  /** A present group's block reads as its heading, a blank line, and its bullets. */
  lemma SectionLines(tasks: seq<Task>, g: Group)
    requires Column(tasks, g) != []
    requires SingleLineTitles(tasks)
    ensures SplitLines(GroupSection(tasks, g)) == BlockLines(tasks, g)
  {
    ColumnTitlesNoBreak(tasks, g);
    GroupHeadNoBreak(g);
    BulletBlockLines("## " + GroupName(g), Titles(Column(tasks, g)));
  }

  lemma GroupHeadNoBreak(g: Group)
    ensures '\n' !in "## " + GroupName(g)
  {
    match g
    case Frontend =>
    case Backend =>
    case Database =>
    case DevOps =>
  }

  /** A break-free heading, a blank line and the bulleted items. */
  lemma BulletBlockLines(head: string, items: seq<string>)
    requires '\n' !in head
    requires items != [] && NoBreaks(items)
    ensures SplitLines(Line(head, Line("", Join(Bullets(items), "\n"))))
         == [head, ""] + Bullets(items)
  {
    ListLinesOfJoin(items);
    HeadedLines(head, Join(Bullets(items), "\n"));
  }

  lemma ColumnTitlesNoBreak(tasks: seq<Task>, g: Group)
    requires SingleLineTitles(tasks)
    ensures NoBreaks(Titles(Column(tasks, g)))
  {
    var column := Column(tasks, g);
    forall i | 0 <= i < |column| ensures NoBreak(Titles(column)[i]) {
      assert column[i] in column;
    }
  }

  lemma HeadedLines(head: string, body: string)
    requires '\n' !in head
    ensures SplitLines(Line(head, Line("", body))) == [head, ""] + SplitLines(body)
  {
    LineLines(head, Line("", body));
    LineLines("", body);
  }

  /** Empty sections are exactly the sections of empty columns, so dropping them
      leaves one section per present group. */
  lemma {:induction false} NonEmptySections(tasks: seq<Task>, groups: seq<Group>)
    ensures NonEmpty(Sections(tasks, groups))
            == Sections(tasks, PresentGroups(tasks, groups))
  {
    if groups != [] {
      var g := groups[0];
      var ss := Sections(tasks, groups);
      assert ss[1..] == Sections(tasks, groups[1..]);
      NonEmptySections(tasks, groups[1..]);
      if Column(tasks, g) != [] {
        assert GroupSection(tasks, g)[0] == '#';
      }
    }
  }

  /** Blocks joined by a blank line read as their lines stacked with blank lines
      between them. */
  lemma {:induction false} JoinedSectionsLines(tasks: seq<Task>, groups: seq<Group>)
    requires forall g :: g in groups ==> Column(tasks, g) != []
    requires SingleLineTitles(tasks)
    ensures SplitLines(Join(Sections(tasks, groups), "\n\n")) == Stack(BlocksLines(tasks, groups))
  {
    if |groups| == 1 {
      SectionLines(tasks, groups[0]);
    } else if |groups| > 1 {
      var ss := Sections(tasks, groups);
      var rest := Join(ss[1..], "\n\n");
      SectionLines(tasks, groups[0]);
      assert ss[1..] == Sections(tasks, groups[1..]);
      JoinedSectionsLines(tasks, groups[1..]);
      DoubleBreak(ss[0], rest);
      BlankBetween(ss[0], rest);
      assert BlocksLines(tasks, groups)[1..] == BlocksLines(tasks, groups[1..]);
    }
  }

  /** Two texts joined by a blank line: the first's lines, a blank line, the second's. */
  lemma BlankBetween(a: string, b: string)
    ensures SplitLines(Line(a, Line("", b))) == SplitLines(a) + [""] + SplitLines(b)
  {
    SplitLinesAppend(a, Line("", b));
    SplitLinesAppend("", b);
  }

  /** The template with its holes filled, split at its line breaks. */
  lemma LayoutLines(title: string, goal: string, stories: string, grouped: string, risks: string)
    requires '\n' !in title && '\n' !in goal
    ensures SplitLines(Layout(title, goal, stories, grouped, risks))
            == ["# " + title, "", "## Goal", goal, "", "## User Stories"]
               + SplitLines(stories) + [""] + SplitLines(grouped)
               + ["", "## Risks"] + SplitLines(risks) + [""]
  {
    var tail := Line(grouped, Line("", Line("## Risks", Line(risks, ""))));
    HeadLines(title, goal, stories, grouped, risks);
    StoryLines(stories, tail);
    TailLines(grouped, risks);
    ConcatLines(title, goal, SplitLines(stories), SplitLines(grouped), SplitLines(risks));
  }

  lemma ConcatLines(title: string, goal: string, S: seq<string>, G: seq<string>, R: seq<string>)
    ensures ["# " + title, "", "## Goal", goal, ""] + (["## User Stories"] + S + [""] + (G + ["", "## Risks"] + R + [""]))
         == ["# " + title, "", "## Goal", goal, "", "## User Stories"] + S + [""] + G + ["", "## Risks"] + R + [""]
  {
  }

  lemma HeadLines(title: string, goal: string, stories: string, grouped: string, risks: string)
    requires '\n' !in title && '\n' !in goal
    ensures var tail := Line(grouped, Line("", Line("## Risks", Line(risks, ""))));
            var storyPart := Line("## User Stories", Line(stories, Line("", tail)));
            SplitLines(Layout(title, goal, stories, grouped, risks))
            == ["# " + title, "", "## Goal", goal, ""] + SplitLines(storyPart)
  {
    var tail := Line(grouped, Line("", Line("## Risks", Line(risks, ""))));
    var storyPart := Line("## User Stories", Line(stories, Line("", tail)));
    HeadingsNoBreak();
    TitleNoBreak(title);
    FiveLines("# " + title, "", "## Goal", goal, "", storyPart);
  }

  lemma TitleNoBreak(title: string)
    requires '\n' !in title
    ensures '\n' !in "# " + title
  {
    assert forall i :: 0 <= i < |title| ==> ("# " + title)[i + 2] == title[i];
  }

  /** Five break-free lines in front of a text. */
  lemma FiveLines(a: string, b: string, c: string, d: string, e: string, rest: string)
    requires '\n' !in a && '\n' !in b && '\n' !in c && '\n' !in d && '\n' !in e
    ensures SplitLines(Line(a, Line(b, Line(c, Line(d, Line(e, rest))))))
         == [a, b, c, d, e] + SplitLines(rest)
  {
    LineLines(e, rest);
    LineLines(d, Line(e, rest));
    LineLines(c, Line(d, Line(e, rest)));
    LineLines(b, Line(c, Line(d, Line(e, rest))));
    LineLines(a, Line(b, Line(c, Line(d, Line(e, rest)))));
  }

  lemma StoryLines(stories: string, tail: string)
    ensures SplitLines(Line("## User Stories", Line(stories, Line("", tail))))
         == ["## User Stories"] + SplitLines(stories) + [""] + SplitLines(tail)
  {
    HeadingsNoBreak();
    HeadThenBlank("## User Stories", stories, tail);
  }

  lemma TailLines(grouped: string, risks: string)
    ensures SplitLines(Line(grouped, Line("", Line("## Risks", Line(risks, "")))))
         == SplitLines(grouped) + ["", "## Risks"] + SplitLines(risks) + [""]
  {
    HeadingsNoBreak();
    BlankThenHead(grouped, "## Risks", risks);
  }

  lemma HeadingsNoBreak()
    ensures '\n' !in "## User Stories" && '\n' !in "## Risks" && '\n' !in "## Goal"
  {
  }

  /** A break-free line, a text, a blank line and more text. */
  lemma HeadThenBlank(h: string, x: string, tail: string)
    requires '\n' !in h
    ensures SplitLines(Line(h, Line(x, Line("", tail)))) == [h] + SplitLines(x) + [""] + SplitLines(tail)
  {
    LineLines(h, Line(x, Line("", tail)));
    BlankBetween(x, tail);
  }

  /** A text, a blank line, a break-free line, a text and a final break. */
  lemma BlankThenHead(x: string, h: string, y: string)
    requires '\n' !in h
    ensures SplitLines(Line(x, Line("", Line(h, Line(y, "")))))
         == SplitLines(x) + ["", h] + SplitLines(y) + [""]
  {
    BlankBetween(x, Line(h, Line(y, "")));
    LineLines(h, Line(y, ""));
    SplitLinesAppend(y, "");
  }

  /** The export, split at its line breaks, is exactly `ExportLines`: the
      template's text and the line-level layout agree whenever the embedded
      texts are single lines. */
  lemma MarkdownLines(spec: SpecSummary, tasks: seq<Task>)
    requires SingleLineTexts(spec, tasks)
    ensures SplitLines(Markdown(spec, tasks)) == ExportLines(spec, tasks)
  {
    var present := PresentGroups(tasks, TaskGroups);
    NonEmptySections(tasks, TaskGroups);
    JoinedSectionsLines(tasks, present);
    ListLinesOfJoin(spec.userStories);
    ListLinesOfJoin(spec.risks);
    LayoutLines(spec.title, spec.goal, Join(Bullets(spec.userStories), "\n"),
                GroupedTasks(tasks), Join(Bullets(spec.risks), "\n"));
  }

  lemma {:induction false} StackHas(groups: seq<seq<string>>, i: int, line: string)
    requires 0 <= i < |groups| && line in groups[i]
    ensures line in Stack(groups)
  {
    if |groups| > 1 && i > 0 {
      assert groups[1..][i - 1] == groups[i];
      StackHas(groups[1..], i - 1, line);
    }
  }

  /** Every task on the board is listed, as a bullet, in the block of its group. */
  lemma EveryTaskListed(spec: SpecSummary, tasks: seq<Task>, t: Task)
    requires t in tasks
    ensures "- " + t.title in ExportLines(spec, tasks)
  {
    SpecModel.GroupLiteralsRoundTrip(t.group);
    TaskInBlocks(tasks, TaskGroups, t);
    GroupedLineInExport(spec, tasks, "- " + t.title);
  }

  lemma TaskInBlocks(tasks: seq<Task>, groups: seq<Group>, t: Task)
    requires t in tasks && t.group in groups
    ensures "- " + t.title in Stack(BlocksLines(tasks, PresentGroups(tasks, groups)))
  {
    var present := PresentGroups(tasks, groups);
    BulletInBlock(tasks, t);
    assert t.group in present;
    var i :| 0 <= i < |present| && present[i] == t.group;
    StackHas(BlocksLines(tasks, present), i, "- " + t.title);
  }

  /** A task's bullet is a line of its group's block. */
  lemma BulletInBlock(tasks: seq<Task>, t: Task)
    requires t in tasks
    ensures Column(tasks, t.group) != []
    ensures "- " + t.title in BlockLines(tasks, t.group)
  {
    var column := Column(tasks, t.group);
    assert t in column;
    var k :| 0 <= k < |column| && column[k] == t;
    var bullets := Bullets(Titles(column));
    assert bullets[k] == "- " + t.title;
    InMiddle(["## " + GroupName(t.group), ""], bullets, [], bullets[k]);
    assert ["## " + GroupName(t.group), ""] + bullets + [] == BlockLines(tasks, t.group);
  }

  lemma GroupedLineInExport(spec: SpecSummary, tasks: seq<Task>, line: string)
    requires line in Stack(BlocksLines(tasks, PresentGroups(tasks, TaskGroups)))
    ensures line in ExportLines(spec, tasks)
  {
    var mid := Stack(BlocksLines(tasks, PresentGroups(tasks, TaskGroups)));
    var pre := ["# " + spec.title, "", "## Goal", spec.goal, "", "## User Stories"]
               + ListLines(spec.userStories) + [""];
    var post := ["", "## Risks"] + ListLines(spec.risks) + [""];
    InMiddle(pre, mid, post, line);
  }

  lemma InMiddle<T>(pre: seq<T>, mid: seq<T>, post: seq<T>, x: T)
    requires x in mid
    ensures x in pre + mid + post
  {
    var j :| 0 <= j < |mid| && mid[j] == x;
    assert (pre + mid + post)[|pre| + j] == x;
  }
}

=== FILE: prompts.dfy ===
/** The prompts sent to the generator: the group literals the system prompt
    allows, and the user prompt built from the four request fields. */
module Prompts {
  import opened Wrappers
  import opened Text
  import opened SpecModel

  /** The values the system prompt says a task's `group` must take. */
  const PromptGroupLiterals: seq<string> := ["Frontend", "Backend", "Database", "DevOps"]

  /** The opening and closing lines of the user prompt, written in pieces so
      that facts about single characters stay cheap to check. */
  const Intro: string := "You are given" + " the following" + " feature idea" + " details:"
  const Outro: string := "Generate the" + " structured JSON" + " specification" + " according to"
                         + " the system" + " instructions."

  /** The template literal with its four holes filled, before `trim()`: it
      opens and closes with a line break around the body. */
  function Template(goal: string, users: string, constraints: string, templateType: string): string {
    "\n" + Body(goal, users, constraints, templateType) + "\n"
  }

  /** `buildUserPrompt`: the template literal with `trim()` applied. Trimming
      removes exactly the template's outer line breaks (`PromptTrim`), so the
      prompt is the body between them. */
  function BuildUserPrompt(goal: string, users: string, constraints: string, templateType: string): (r: string)
    ensures StartsWith(r, Intro) && EndsWith(r, Outro)
  {
    BodyEnds(goal, users, constraints, templateType);
    Body(goal, users, constraints, templateType)
  }

  /** A labelled section: a blank line, the heading, then the value's lines. */
  function Section(heading: string, value: string, rest: string): string {
    Line("", Line(heading, Line(value, rest)))
  }

  /** The template between its outer line breaks, one `Line` per line of the
      literal: the introduction, a blank line, and the four labelled values
      separated by blank lines, then a blank line and the closing instruction. */
  function Body(goal: string, users: string, constraints: string, templateType: string): string {
    Line(Intro,
      Section("Goal:", goal,
      Section("Target Users:", users,
      Section("Constraints:", constraints,
      Section("Template Type:", templateType, Line("", Outro))))))
  }

  // ---------------------------------------------------------------------------
  // Lemmas

  /** `trim()` removes only the template's outer line breaks, whatever the field
      values are: the values are embedded verbatim, untrimmed. */
  lemma PromptTrim(goal: string, users: string, constraints: string, templateType: string)
    ensures Trim(Template(goal, users, constraints, templateType)) == BuildUserPrompt(goal, users, constraints, templateType)
  {
    var b := Body(goal, users, constraints, templateType);
    BodyEnds(goal, users, constraints, templateType);
    assert b[0] == Intro[0] == 'Y';
    assert b[|b| - 1] == Outro[|Outro| - 1] == '.';
    TrimOfPadded("\n", b, "\n");
  }

  lemma BodyEnds(goal: string, users: string, constraints: string, templateType: string)
    ensures StartsWith(Body(goal, users, constraints, templateType), Intro)
    ensures EndsWith(Body(goal, users, constraints, templateType), Outro)
  {
    var b := Body(goal, users, constraints, templateType);
    var s4 := Section("Template Type:", templateType, Line("", Outro));
    var s3 := Section("Constraints:", constraints, s4);
    var s2 := Section("Target Users:", users, s3);
    var s1 := Section("Goal:", goal, s2);
    assert b == Intro + ("\n" + s1);
    assert b[..|Intro|] == Intro;
    assert Line("", Outro)[1..] == Outro;
    SectionKeepsEnd("Template Type:", templateType, Line("", Outro));
    SectionKeepsEnd("Constraints:", constraints, s4);
    SectionKeepsEnd("Target Users:", users, s3);
    SectionKeepsEnd("Goal:", goal, s2);
    LineKeepsEnd(Intro, s1);
  }

  lemma LineKeepsEnd(line: string, rest: string)
    requires EndsWith(rest, Outro)
    ensures EndsWith(Line(line, rest), Outro)
  {
    var r := Line(line, rest);
    assert r == (line + "\n") + rest;
    assert r[|r| - |Outro|..] == rest[|rest| - |Outro|..];
  }

  lemma SectionKeepsEnd(heading: string, value: string, rest: string)
    requires EndsWith(rest, Outro)
    ensures EndsWith(Section(heading, value, rest), Outro)
  {
    LineKeepsEnd(value, rest);
    LineKeepsEnd(heading, Line(value, rest));
    LineKeepsEnd("", Line(heading, Line(value, rest)));
  }

  lemma SectionLines(heading: string, value: string, rest: string)
    requires '\n' !in heading
    ensures SplitLines(Section(heading, value, rest)) == ["", heading] + SplitLines(value) + SplitLines(rest)
  {
    LineLines("", Line(heading, Line(value, rest)));
    LineLines(heading, Line(value, rest));
    SplitLinesAppend(value, rest);
  }

  lemma Flatten(g: seq<string>, u: seq<string>, c: seq<string>, t: seq<string>)
    ensures [Intro] + (["", "Goal:"] + g + (["", "Target Users:"] + u + (["", "Constraints:"] + c
              + (["", "Template Type:"] + t + ["", Outro]))))
         == [Intro, "", "Goal:"] + g + ["", "Target Users:"] + u + ["", "Constraints:"] + c
            + ["", "Template Type:"] + t + ["", Outro]
  {
  }

  /** The prompt read line by line: the introduction, then Goal, Target Users,
      Constraints and Template Type in that order, each heading followed on the
      next line by its value, and the closing instruction. */
  lemma PromptLines(goal: string, users: string, constraints: string, templateType: string)
    ensures SplitLines(BuildUserPrompt(goal, users, constraints, templateType))
         == [Intro, "", "Goal:"] + SplitLines(goal) + ["", "Target Users:"] + SplitLines(users)
            + ["", "Constraints:"] + SplitLines(constraints)
            + ["", "Template Type:"] + SplitLines(templateType) + ["", Outro]
  {
    BodyLines(goal, users, constraints, templateType);
    Flatten(SplitLines(goal), SplitLines(users), SplitLines(constraints), SplitLines(templateType));
  }

  lemma BodyLines(goal: string, users: string, constraints: string, templateType: string)
    ensures SplitLines(Body(goal, users, constraints, templateType))
         == [Intro] + (["", "Goal:"] + SplitLines(goal) + (["", "Target Users:"] + SplitLines(users)
            + (["", "Constraints:"] + SplitLines(constraints)
            + (["", "Template Type:"] + SplitLines(templateType) + ["", Outro]))))
  {
    var end := Line("", Outro);
    var s4 := Section("Template Type:", templateType, end);
    var s3 := Section("Constraints:", constraints, s4);
    var s2 := Section("Target Users:", users, s3);
    var s1 := Section("Goal:", goal, s2);
    LiteralsNoBreak();
    SplitLinesNoBreak(Outro);
    LineLines("", Outro);
    SectionLines("Template Type:", templateType, end);
    SectionLines("Constraints:", constraints, s4);
    SectionLines("Target Users:", users, s3);
    SectionLines("Goal:", goal, s2);
    LineLines(Intro, s1);
  }

  lemma LiteralsNoBreak()
    ensures '\n' !in Intro && '\n' !in Outro
    ensures '\n' !in "Goal:" && '\n' !in "Target Users:"
    ensures '\n' !in "Constraints:" && '\n' !in "Template Type:"
  {
    IntroNoBreak();
    OutroNoBreak();
  }

  lemma NoBreakJoin(a: string, b: string)
    requires '\n' !in a && '\n' !in b
    ensures '\n' !in a + b
  {
  }

  lemma IntroNoBreak()
    ensures '\n' !in Intro
  {
    NoBreakJoin("You are given", " the following");
    NoBreakJoin("You are given" + " the following", " feature idea");
    NoBreakJoin("You are given" + " the following" + " feature idea", " details:");
  }

  lemma OutroNoBreak()
    ensures '\n' !in Outro
  {
    var a := "Generate the" + " structured JSON";
    NoBreakJoin("Generate the", " structured JSON");
    NoBreakJoin(a, " specification");
    NoBreakJoin(a + " specification", " according to");
    NoBreakJoin(a + " specification" + " according to", " the system");
    NoBreakJoin(a + " specification" + " according to" + " the system", " instructions.");
  }

  /** Single-line values can be read back from fixed lines of the prompt. */
  lemma PromptFieldsRecoverable(goal: string, users: string, constraints: string, templateType: string)
    requires '\n' !in goal && '\n' !in users && '\n' !in constraints && '\n' !in templateType
    ensures var lines := SplitLines(BuildUserPrompt(goal, users, constraints, templateType));
            |lines| == 15 && lines[3] == goal && lines[6] == users
            && lines[9] == constraints && lines[12] == templateType
  {
    PromptLines(goal, users, constraints, templateType);
    SplitLinesNoBreak(goal);
    SplitLinesNoBreak(users);
    SplitLinesNoBreak(constraints);
    SplitLinesNoBreak(templateType);
    FieldPositions(Intro, Outro, goal, users, constraints, templateType);
  }

  lemma FieldPositions(first: string, last: string, g: string, u: string, c: string, t: string)
    ensures var lines := [first, "", "Goal:"] + [g] + ["", "Target Users:"] + [u]
                         + ["", "Constraints:"] + [c] + ["", "Template Type:"] + [t] + ["", last];
            |lines| == 15 && lines[3] == g && lines[6] == u && lines[9] == c && lines[12] == t
  {
  }

  /** The literals listed in the system prompt are exactly the group names the
      validator and the schema accept, in the board's column order. */
  lemma GroupLiteralsAgree()
    ensures |PromptGroupLiterals| == |TaskGroups|
    ensures forall i :: 0 <= i < |TaskGroups| ==> PromptGroupLiterals[i] == GroupName(TaskGroups[i])
    ensures forall s :: s in PromptGroupLiterals <==> ParseGroup(s).Some?
  {
    forall s ensures s in PromptGroupLiterals <==> ParseGroup(s).Some? {
      if ParseGroup(s).Some? {
        assert s == GroupName(ParseGroup(s).value);
      }
    }
  }
}

=== FILE: spec_model.dfy ===
/** The stored document shapes: a task with its closed four-value group, and the
    specification record with its required fields, array defaults and timestamps. */
module SpecModel {
  import opened Wrappers
  import opened JsonValue

  /** The only closed enumeration of the system. */
  datatype Group = Frontend | Backend | Database | DevOps

  /** The column order used by the board and the export. */
  const TaskGroups: seq<Group> := [Frontend, Backend, Database, DevOps]

  /** The literal that stands for a group in JSON, in the schema and in drop targets. */
  function GroupName(g: Group): string {
    match g
    case Frontend => "Frontend"
    case Backend => "Backend"
    case Database => "Database"
    case DevOps => "DevOps"
  }

  /** The schema's `enum` test: which strings name a group, and which one. */
  function ParseGroup(s: string): (r: Option<Group>)
    ensures r.Some? ==> GroupName(r.value) == s
    ensures forall g :: GroupName(g) == s ==> r == Some(g)
  {
    if s == "Frontend" then Some(Frontend)
    else if s == "Backend" then Some(Backend)
    else if s == "Database" then Some(Database)
    else if s == "DevOps" then Some(DevOps)
    else None
  }

  /** A task: all three fields are required and there is no separate `_id`. */
  datatype Task = Task(id: string, title: string, group: Group)

  /** A stored specification. Elements of `userStories` and `risks` are kept as
      the parsed values the generator returned. */
  datatype SpecRecord = SpecRecord(
    id: nat,
    goal: string,
    users: string,
    constraints: string,
    title: string,
    userStories: seq<Json>,
    tasks: seq<Task>,
    risks: seq<Json>,
    createdAt: nat,
    updatedAt: nat)

  /** The fields handed to `create`; the three arrays may be left out. */
  datatype SpecInput = SpecInput(
    goal: string,
    users: string,
    constraints: string,
    title: string,
    userStories: Option<seq<Json>>,
    tasks: Option<seq<Task>>,
    risks: Option<seq<Json>>)

  function OrEmpty<T>(o: Option<seq<T>>): seq<T> {
    if o.Some? then o.value else []
  }

  /** `create`: the store assigns the identity and both timestamps; a missing
      array takes its default, the empty sequence. */
  function NewRecord(id: nat, input: SpecInput, now: nat): (r: SpecRecord)
    ensures r.id == id && r.createdAt == now && r.updatedAt == now
    ensures r.goal == input.goal && r.users == input.users
    ensures r.constraints == input.constraints && r.title == input.title
    ensures input.userStories.None? ==> r.userStories == []
    ensures input.tasks.None? ==> r.tasks == []
    ensures input.risks.None? ==> r.risks == []
    ensures input.userStories.Some? ==> r.userStories == input.userStories.value
    ensures input.tasks.Some? ==> r.tasks == input.tasks.value
    ensures input.risks.Some? ==> r.risks == input.risks.value
  {
    SpecRecord(id, input.goal, input.users, input.constraints, input.title,
               OrEmpty(input.userStories), OrEmpty(input.tasks), OrEmpty(input.risks),
               now, now)
  }

  /** Every group has a literal, the literals are distinct, and `TaskGroups`
      lists each group exactly once. */
  lemma GroupLiteralsRoundTrip(g: Group)
    ensures ParseGroup(GroupName(g)) == Some(g)
    ensures g in TaskGroups
    ensures |TaskGroups| == 4
    ensures forall i, j :: 0 <= i < j < |TaskGroups| ==> TaskGroups[i] != TaskGroups[j]
  {
  }
}

=== FILE: spec_store.dfy ===
/** The specification collection as an abstract store: the records in insertion
    order, each with its identity and creation time. It serves the two queries
    the server runs: newest-first with the first five skipped (retention), and
    newest-first limited to five (history). */
module SpecStore {
  import opened SpecModel

  type Store = seq<SpecRecord>

  /** How many specifications the server keeps, and history shows. */
  const Kept: nat := 5

  /** Identities are unique: no two positions hold the same id. */
  predicate UniqueIds(s: Store) {
    forall i, j :: 0 <= i < |s| && 0 <= j < |s| && s[i].id == s[j].id ==> i == j
  }

  function Ids(s: Store): set<nat> {
    set r | r in s :: r.id
  }

  /** `sort({ createdAt: -1 })`: creation times never increase along the sequence. */
  predicate NewestFirst(s: Store) {
    forall i, j :: 0 <= i < j < |s| ==> s[i].createdAt >= s[j].createdAt
  }

  function Insert(x: SpecRecord, t: Store): (r: Store)
    requires NewestFirst(t)
    ensures |r| == |t| + 1
    ensures multiset(r) == multiset(t) + multiset{x}
    ensures NewestFirst(r)
  {
    if t == [] then [x]
    else if x.createdAt >= t[0].createdAt then [x] + t
    else
      var rest := Insert(x, t[1..]);
      assert t == [t[0]] + t[1..];
      NoNewerThanHead(t, x, rest);
      [t[0]] + rest
  }

  /** The tail of a newest-first sequence with one older record added holds
      nothing newer than the head. */
  lemma NoNewerThanHead(t: Store, x: SpecRecord, rest: Store)
    requires t != [] && NewestFirst(t) && x.createdAt < t[0].createdAt
    requires multiset(rest) == multiset(t[1..]) + multiset{x}
    ensures forall k :: 0 <= k < |rest| ==> rest[k].createdAt <= t[0].createdAt
  {
    forall k | 0 <= k < |rest| ensures rest[k].createdAt <= t[0].createdAt {
      assert rest[k] in multiset(rest);
      if rest[k] != x {
        assert rest[k] in multiset(t[1..]);
        var j :| 0 <= j < |t[1..]| && t[1..][j] == rest[k];
        assert t[j + 1] == rest[k];
      }
    }
  }

  /** The store read newest first. Records with equal creation times may come in
      any order in the database; this ordering is one of the allowed ones. */
  function SortNewestFirst(s: Store): (r: Store)
    ensures |r| == |s|
    ensures multiset(r) == multiset(s)
    ensures NewestFirst(r)
  {
    if s == [] then []
    else
      assert s == [s[0]] + s[1..];
      Insert(s[0], SortNewestFirst(s[1..]))
  }

  function Min(a: nat, b: nat): nat {
    if a <= b then a else b
  }

  /** `find({}).sort({ createdAt: -1 }).skip(5)`: the records beyond the five newest. */
  function Overflow(s: Store): (r: Store)
    ensures |r| == |s| - Min(|s|, Kept)
    ensures multiset(r) <= multiset(s)
    ensures forall x, y :: x in r && y in s && y !in r ==> x.createdAt <= y.createdAt
  {
    var t := SortNewestFirst(s);
    var m := Min(|t|, Kept);
    assert t == t[..m] + t[m..];
    forall x, y | x in t[m..] && y in s && y !in t[m..] ensures x.createdAt <= y.createdAt {
      assert y in multiset(s);
      assert y in t;
      var p :| m <= p < |t| && t[p] == x;
      var q :| 0 <= q < |t| && t[q] == y;
    }
    t[m..]
  }

  /** `deleteMany({ _id: { $in: ids } })`: every record whose id is listed goes,
      the others stay in their order. */
  function DeleteIds(s: Store, ids: set<nat>): (r: Store)
    ensures forall x :: x in r <==> x in s && x.id !in ids
    ensures |r| <= |s|
  {
    if s == [] then []
    else if s[0].id in ids then DeleteIds(s[1..], ids)
    else [s[0]] + DeleteIds(s[1..], ids)
  }

  /** The retention pass: the ids of the overflow, deleted when there are any. */
  function Retain(s: Store): Store {
    var stale := Ids(Overflow(s));
    if |Overflow(s)| > 0 then DeleteIds(s, stale) else s
  }

  /** A history entry: `select("_id title createdAt")`. */
  datatype HistoryItem = HistoryItem(id: nat, title: string, createdAt: nat)

  function Item(r: SpecRecord): HistoryItem {
    HistoryItem(r.id, r.title, r.createdAt)
  }

  function Items(s: Store): (r: seq<HistoryItem>)
    ensures |r| == |s|
    ensures forall i :: 0 <= i < |s| ==> r[i] == Item(s[i])
  {
    if s == [] then [] else [Item(s[0])] + Items(s[1..])
  }

  /** The history query: `find({}).sort({ createdAt: -1 }).limit(5)`, projected. */
  function History(s: Store): seq<HistoryItem> {
    var t := SortNewestFirst(s);
    Items(t[..Min(|t|, Kept)])
  }

  /** The identity `create` hands out: larger than every identity in use. */
  function FreshId(s: Store): (r: nat)
    ensures forall x :: x in s ==> x.id < r
  {
    if s == [] then 1
    else
      var rest := FreshId(s[1..]);
      if s[0].id + 1 > rest then s[0].id + 1 else rest
  }

  // ---------------------------------------------------------------------------
  // Lemmas: sorting keeps unique identities

  lemma InsertIds(x: SpecRecord, t: Store)
    requires NewestFirst(t)
    ensures forall y :: y in Insert(x, t) <==> y in t || y == x
  {
    var r := Insert(x, t);
    forall y ensures y in r <==> y in t || y == x {
      assert y in r <==> multiset(r)[y] > 0;
      assert y in t <==> multiset(t)[y] > 0;
    }
  }

  /** A record put in front keeps identities unique exactly when its id is new. */
  lemma ConsUnique(a: SpecRecord, u: Store)
    ensures UniqueIds([a] + u) <==> UniqueIds(u) && a.id !in Ids(u)
  {
    var r := [a] + u;
    if UniqueIds(r) {
      forall i, j | 0 <= i < |u| && 0 <= j < |u| && u[i].id == u[j].id ensures i == j {
        assert r[i + 1].id == r[j + 1].id;
      }
      forall y | y in u ensures y.id != a.id {
        var k :| 0 <= k < |u| && u[k] == y;
        assert r[k + 1] == y && r[0] == a;
      }
    }
    if UniqueIds(u) && a.id !in Ids(u) {
      forall i, j | 0 <= i < |r| && 0 <= j < |r| && r[i].id == r[j].id ensures i == j {
        if i > 0 { assert r[i] == u[i - 1]; }
        if j > 0 { assert r[j] == u[j - 1]; }
      }
    }
  }

  lemma {:induction false} InsertUnique(x: SpecRecord, t: Store)
    requires NewestFirst(t) && UniqueIds(t) && x.id !in Ids(t)
    ensures UniqueIds(Insert(x, t))
  {
    if t == [] {
      ConsUnique(x, []);
    } else if x.createdAt >= t[0].createdAt {
      ConsUnique(x, t);
    } else {
      assert t == [t[0]] + t[1..];
      ConsUnique(t[0], t[1..]);
      assert x.id !in Ids(t[1..]);
      InsertUnique(x, t[1..]);
      InsertIds(x, t[1..]);
      assert t[0].id != x.id;
      ConsUnique(t[0], Insert(x, t[1..]));
    }
  }

  /** Reordering changes neither membership nor the identities present. */
  lemma SameRecords(a: Store, b: Store)
    requires multiset(a) == multiset(b)
    ensures forall x :: x in a <==> x in b
    ensures Ids(a) == Ids(b)
  {
    forall x ensures x in a <==> x in b {
      assert x in a <==> x in multiset(a);
      assert x in b <==> x in multiset(b);
    }
  }

  lemma {:induction false} SortUnique(s: Store)
    requires UniqueIds(s)
    ensures UniqueIds(SortNewestFirst(s))
  {
    if s != [] {
      assert s == [s[0]] + s[1..];
      ConsUnique(s[0], s[1..]);
      SortUnique(s[1..]);
      var t := SortNewestFirst(s[1..]);
      SameRecords(t, s[1..]);
      InsertUnique(s[0], t);
    }
  }

  // ---------------------------------------------------------------------------
  // Lemmas: retention

  lemma SameIdSameRecord(s: Store, a: SpecRecord, b: SpecRecord)
    requires UniqueIds(s) && a in s && b in s && a.id == b.id
    ensures a == b
  {
    var p :| 0 <= p < |s| && s[p] == a;
    var q :| 0 <= q < |s| && s[q] == b;
  }

  /** Positions in a sequence with unique identities are determined by the record. */
  lemma IndexOf(s: Store, x: SpecRecord) returns (p: nat)
    requires UniqueIds(s) && x in s
    ensures p < |s| && s[p] == x
    ensures forall q :: 0 <= q < |s| && s[q] == x ==> q == p
  {
    p :| 0 <= p < |s| && s[p] == x;
  }

  /** For a record of the store, its id is among the overflow's exactly when the
      record itself sits beyond the first five of the newest-first order. */
  lemma OverflowMembership(s: Store, x: SpecRecord)
    requires UniqueIds(s) && x in s
    ensures var t := SortNewestFirst(s);
            (x.id in Ids(Overflow(s)) <==> x in Overflow(s))
            && (x in Overflow(s) <==> x !in t[..Min(|t|, Kept)])
  {
    var t := SortNewestFirst(s);
    SortUnique(s);
    SameRecords(t, s);
    SuffixIds(t, Min(|t|, Kept), x);
    PrefixOrSuffix(t, Min(|t|, Kept), x);
  }

  /** In a sequence with unique identities, a member's id occurs in a suffix
      exactly when the member itself does. */
  lemma SuffixIds(t: Store, m: nat, x: SpecRecord)
    requires UniqueIds(t) && x in t && m <= |t|
    ensures x.id in Ids(t[m..]) <==> x in t[m..]
  {
    if x.id in Ids(t[m..]) {
      var e :| e in t[m..] && e.id == x.id;
      SameIdSameRecord(t, e, x);
    }
  }

  /** In a sequence with unique identities, a member lies in exactly one of a
      prefix and the matching suffix. */
  lemma PrefixOrSuffix(t: Store, m: nat, x: SpecRecord)
    requires UniqueIds(t) && x in t && m <= |t|
    ensures x in t[m..] <==> x !in t[..m]
  {
    var p := IndexOf(t, x);
    if p < m {
      assert t[..m][p] == x;
      forall q | 0 <= q < |t| - m ensures t[m..][q] != x {
        assert t[m..][q] == t[m + q];
      }
    } else {
      assert t[m..][p - m] == x;
      forall q | 0 <= q < m ensures t[..m][q] != x {
        assert t[..m][q] == t[q];
      }
    }
  }

  /** Retention keeps exactly the records among the five newest. */
  lemma RetainMembership(s: Store, x: SpecRecord)
    requires UniqueIds(s)
    ensures var t := SortNewestFirst(s);
            x in Retain(s) <==> x in t[..Min(|t|, Kept)]
  {
    var t := SortNewestFirst(s);
    var m := Min(|t|, Kept);
    SameRecords(t, s);
    if x in s {
      OverflowMembership(s, x);
    }
    if |Overflow(s)| == 0 {
      assert t[..m] == t;
    }
  }

  /** Everything deleted is no newer than anything kept. */
  lemma RetainKeepsNewest(s: Store, k: SpecRecord, d: SpecRecord)
    requires UniqueIds(s)
    requires k in Retain(s) && d in s && d !in Retain(s)
    ensures d.createdAt <= k.createdAt
  {
    var t := SortNewestFirst(s);
    var m := Min(|t|, Kept);
    RetainMembership(s, k);
    RetainMembership(s, d);
    SameRecords(t, s);
    var p :| 0 <= p < m && t[p] == k;
    var q :| 0 <= q < |t| && t[q] == d;
  }

  /** A sequence with unique identities has as many distinct records as positions. */
  lemma {:induction false} CardOfUnique(u: Store)
    requires UniqueIds(u)
    ensures |set x | x in u| == |u|
  {
    if u != [] {
      assert u == [u[0]] + u[1..];
      ConsUnique(u[0], u[1..]);
      CardOfUnique(u[1..]);
      SetOfCons(u[0], u[1..]);
      assert u[0] !in u[1..];
    }
  }

  lemma SetOfCons(a: SpecRecord, rest: Store)
    ensures (set x | x in [a] + rest) == {a} + (set x | x in rest)
  {
  }

  lemma {:induction false} DeleteKeepsUnique(s: Store, ids: set<nat>)
    requires UniqueIds(s)
    ensures UniqueIds(DeleteIds(s, ids))
  {
    if s != [] {
      assert s == [s[0]] + s[1..];
      ConsUnique(s[0], s[1..]);
      DeleteKeepsUnique(s[1..], ids);
      if s[0].id !in ids {
        ConsUnique(s[0], DeleteIds(s[1..], ids));
      }
    }
  }

  lemma PrefixUnique(t: Store, m: nat)
    requires UniqueIds(t) && m <= |t|
    ensures UniqueIds(t[..m])
  {
    forall i, j | 0 <= i < m && 0 <= j < m && t[..m][i].id == t[..m][j].id ensures i == j {
      assert t[i].id == t[j].id;
    }
  }

  /** The retention pass leaves `min(n, 5)` records of a store of `n`, with unique
      identities still. */
  lemma RetainSize(s: Store)
    requires UniqueIds(s)
    ensures |Retain(s)| == Min(|s|, Kept)
    ensures UniqueIds(Retain(s))
  {
    var t := SortNewestFirst(s);
    var m := Min(|t|, Kept);
    var r := Retain(s);
    if |Overflow(s)| > 0 {
      DeleteKeepsUnique(s, Ids(Overflow(s)));
    }
    SortUnique(s);
    PrefixUnique(t, m);
    forall x ensures x in r <==> x in t[..m] {
      RetainMembership(s, x);
    }
    assert (set x | x in r) == (set x | x in t[..m]);
    CardOfUnique(r);
    CardOfUnique(t[..m]);
  }

  /** A record strictly newer than all others survives retention. */
  lemma NewestSurvives(s: Store, x: SpecRecord)
    requires UniqueIds(s) && x in s
    requires forall y :: y in s && y != x ==> y.createdAt < x.createdAt
    ensures x in Retain(s)
  {
    if x !in Retain(s) {
      RetainSize(s);
      assert |Retain(s)| >= 1;
      var k := Retain(s)[0];
      assert k in Retain(s) && k in s;
      RetainKeepsNewest(s, k, x);
    }
  }

  /** A record with the fresh identity can join the store. */
  lemma FreshKeepsUnique(s: Store, x: SpecRecord)
    requires UniqueIds(s) && x.id == FreshId(s)
    ensures UniqueIds(s + [x])
  {
    var u := s + [x];
    forall i, j | 0 <= i < |u| && 0 <= j < |u| && u[i].id == u[j].id ensures i == j {
      if i < |s| && j < |s| {
        assert s[i].id == s[j].id;
      }
    }
  }

  // ---------------------------------------------------------------------------
  // Lemmas: history

  /** History lists the five newest records, newest first, as projections. */
  lemma HistoryShape(s: Store)
    ensures |History(s)| == Min(|s|, Kept)
    ensures forall i, j :: 0 <= i < j < |History(s)| ==> History(s)[i].createdAt >= History(s)[j].createdAt
    ensures forall i :: 0 <= i < |History(s)| ==> exists x :: x in s && History(s)[i] == Item(x)
    ensures UniqueIds(s) ==> forall i, j :: 0 <= i < j < |History(s)| ==> History(s)[i].id != History(s)[j].id
  {
    var t := SortNewestFirst(s);
    var m := Min(|t|, Kept);
    SameRecords(t, s);
    forall i | 0 <= i < |History(s)| ensures exists x :: x in s && History(s)[i] == Item(x) {
      assert History(s)[i] == Item(t[i]);
      assert t[i] in t;
    }
    if UniqueIds(s) {
      SortUnique(s);
      forall i, j | 0 <= i < j < |History(s)| ensures History(s)[i].id != History(s)[j].id {
        assert History(s)[i] == Item(t[i]) && History(s)[j] == Item(t[j]);
      }
    }
  }

  /** A record history does not list is no newer than any record it lists. */
  lemma HistoryIsTopFive(s: Store, d: SpecRecord, i: int)
    requires UniqueIds(s) && d in s && Item(d) !in History(s)
    requires 0 <= i < |History(s)|
    ensures d.createdAt <= History(s)[i].createdAt
  {
    var t := SortNewestFirst(s);
    var m := Min(|t|, Kept);
    SameRecords(t, s);
    var q :| 0 <= q < |t| && t[q] == d;
    assert History(s)[i] == Item(t[i]);
    forall j | 0 <= j < m ensures t[j] != d {
      assert History(s)[j] == Item(t[j]);
    }
  }

  /** A store of at most five records is listed in full. */
  lemma HistoryListsAll(s: Store, x: SpecRecord)
    requires |s| <= Kept && x in s
    ensures Item(x) in History(s)
  {
    var t := SortNewestFirst(s);
    SameRecords(t, s);
    var q :| 0 <= q < |t| && t[q] == x;
    assert t[..Min(|t|, Kept)] == t;
    assert History(s)[q] == Item(x);
  }

  /** A record added with a fresh id and a later time than every stored one
      survives the trim, and the history lists it. */
  lemma NewestAddedIsListed(store: Store, x: SpecRecord)
    requires UniqueIds(store) && |store| <= Kept && x.id == FreshId(store)
    requires forall y :: y in store ==> y.createdAt < x.createdAt
    ensures x in Retain(store + [x]) && Item(x) in History(Retain(store + [x]))
  {
    var s := store + [x];
    FreshKeepsUnique(store, x);
    AddedIsNewest(store, x);
    NewestSurvives(s, x);
    RetainSize(s);
    var kept := Retain(s);
    assert |kept| <= Kept && x in kept;
    HistoryListsAll(kept, x);
  }

  /** A record later than every stored one is the newest once added. */
  lemma AddedIsNewest(store: Store, x: SpecRecord)
    requires forall y :: y in store ==> y.createdAt < x.createdAt
    ensures forall y :: y in store + [x] && y != x ==> y.createdAt < x.createdAt
  {
    forall y | y in store + [x] && y != x ensures y.createdAt < x.createdAt {
      assert y in store;
    }
  }
}

=== FILE: task_board.dfy ===
/** The client-side task board: one ordered sequence of tasks is the whole board,
    and each group's column is the order-preserving filter of it by group. The
    operations are the drag-end transition, rename and delete. */
module TaskBoard {
  import opened Wrappers
  import opened SpecModel

  // ---------------------------------------------------------------------------
  // Sequence positions

  function RemoveAt<T>(s: seq<T>, i: nat): (r: seq<T>)
    requires i < |s|
    ensures |r| == |s| - 1
    ensures forall k :: 0 <= k < i ==> r[k] == s[k]
    ensures forall k :: i <= k < |r| ==> r[k] == s[k + 1]
    ensures multiset(r) == multiset(s) - multiset{s[i]}
  {
    assert s == s[..i] + [s[i]] + s[i + 1..];
    s[..i] + s[i + 1..]
  }

  function InsertAt<T>(s: seq<T>, i: nat, x: T): (r: seq<T>)
    requires i <= |s|
    ensures |r| == |s| + 1 && r[i] == x
    ensures forall k :: 0 <= k < i ==> r[k] == s[k]
    ensures forall k :: i < k < |r| ==> r[k] == s[k - 1]
    ensures multiset(r) == multiset(s) + multiset{x}
  {
    assert s == s[..i] + s[i..];
    s[..i] + [x] + s[i..]
  }

  /** `arrayMove(array, from, to)`: the element at `from` is taken out and put
      back so that it sits at index `to`; nothing is lost or duplicated, and the
      other elements keep their relative order. */
  function ArrayMove<T>(s: seq<T>, from: nat, to: nat): (r: seq<T>)
    requires from < |s| && to < |s|
    ensures |r| == |s| && r[to] == s[from]
    ensures multiset(r) == multiset(s)
    ensures RemoveAt(r, to) == RemoveAt(s, from)
  {
    RemoveInserted(RemoveAt(s, from), to, s[from]);
    InsertAt(RemoveAt(s, from), to, s[from])
  }

  /** Taking out what was just put in gives the sequence back. */
  lemma RemoveInserted<T>(s: seq<T>, i: nat, x: T)
    requires i <= |s|
    ensures RemoveAt(InsertAt(s, i, x), i) == s
  {
    var r := RemoveAt(InsertAt(s, i, x), i);
    forall k | 0 <= k < |s| ensures r[k] == s[k] {
      if k >= i {
        assert r[k] == InsertAt(s, i, x)[k + 1];
      }
    }
  }

  // ---------------------------------------------------------------------------
  // Identities

  predicate HasId(s: seq<Task>, id: string) {
    exists i :: 0 <= i < |s| && s[i].id == id
  }

  function IdSet(s: seq<Task>): set<string> {
    set t | t in s :: t.id
  }

  predicate UniqueIds(s: seq<Task>) {
    forall i, j :: 0 <= i < j < |s| ==> s[i].id != s[j].id
  }

  /** `findIndex(t => t.id === id)`: the first position holding `id`, or -1. */
  function FindIndex(s: seq<Task>, id: string): (r: int)
    ensures -1 <= r < |s|
    ensures r == -1 <==> !HasId(s, id)
    ensures r >= 0 ==> s[r].id == id && forall k :: 0 <= k < r ==> s[k].id != id
  {
    if s == [] then -1
    else if s[0].id == id then 0
    else
      var k := FindIndex(s[1..], id);
      HasIdCons(s, id);
      if k == -1 then -1 else k + 1
  }

  /** A sequence carries an id when its head does or its tail does. */
  lemma HasIdCons(s: seq<Task>, id: string)
    requires s != []
    ensures HasId(s, id) <==> s[0].id == id || HasId(s[1..], id)
  {
    if HasId(s[1..], id) {
      var i :| 0 <= i < |s[1..]| && s[1..][i].id == id;
      assert s[i + 1].id == id;
    }
    if HasId(s, id) && s[0].id != id {
      var i :| 0 <= i < |s| && s[i].id == id;
      assert s[1..][i - 1].id == id;
    }
  }

  /** How many tasks carry `id`. */
  function CountId(s: seq<Task>, id: string): nat {
    if s == [] then 0 else (if s[0].id == id then 1 else 0) + CountId(s[1..], id)
  }

  // ---------------------------------------------------------------------------
  // Filters: delete and the group columns

  /** `s.filter(t => t.id !== id)`: `deleteTask`, and the board without the
      dragged task. Keeps exactly the tasks not carrying `id`. */
  function WithoutId(s: seq<Task>, id: string): (r: seq<Task>)
    ensures forall t :: t in r <==> t in s && t.id != id
    ensures |r| == |s| - CountId(s, id)
    ensures !HasId(r, id)
    ensures !HasId(s, id) ==> r == s
  {
    if s == [] then []
    else
      var rest := WithoutId(s[1..], id);
      assert s == [s[0]] + s[1..];
      HasIdCons(s, id);
      if s[0].id == id then rest
      else
        assert ([s[0]] + rest)[1..] == rest;
        HasIdCons([s[0]] + rest, id);
        [s[0]] + rest
  }

  /** `tasks.filter(t => t.group === g)`: the column of group `g`. */
  function Column(s: seq<Task>, g: Group): (r: seq<Task>)
    ensures forall t :: t in r <==> t in s && t.group == g
    ensures |r| <= |s|
  {
    if s == [] then []
    else
      assert s == [s[0]] + s[1..];
      var rest := Column(s[1..], g);
      if s[0].group == g then [s[0]] + rest else rest
  }

  // ---------------------------------------------------------------------------
  // Rename

  /** `updateTaskTitle(id, title)`: every task carrying `id` gets the new title;
      ids, groups, positions and all other tasks are left as they were. */
  function RenameTask(s: seq<Task>, id: string, title: string): (r: seq<Task>)
    ensures |r| == |s|
    ensures forall i :: 0 <= i < |s| ==> r[i].id == s[i].id && r[i].group == s[i].group
    ensures forall i :: 0 <= i < |s| && s[i].id != id ==> r[i] == s[i]
    ensures forall i :: 0 <= i < |s| && s[i].id == id ==> r[i].title == title
    ensures !HasId(s, id) ==> r == s
  {
    seq(|s|, i requires 0 <= i < |s| => if s[i].id == id then s[i].(title := title) else s[i])
  }

  // ---------------------------------------------------------------------------
  // Drag end

  /** A drop on a column: every task carrying the dragged id is removed and the
      dragged task, regrouped, is appended at the very end of the board. */
  function MoveToColumn(s: seq<Task>, active: Task, g: Group): seq<Task> {
    WithoutId(s, active.id) + [active.(group := g)]
  }

  /** A drop onto a task of another group: the dragged task takes the target's
      group and is inserted immediately before the target. */
  function MoveOntoTask(s: seq<Task>, active: Task, overId: string, g: Group): seq<Task>
    requires overId != active.id && HasId(s, overId)
  {
    var without := WithoutId(s, active.id);
    var j := FindIndex(s, overId);
    assert s[j] in without;
    var k := FindIndex(without, overId);
    InsertAt(without, k, active.(group := g))
  }

  /** `handleDragEnd` reduced to its effect on the board: `activeId` is the
      dragged task, `overId` the drop target (a column literal or a task id), or
      `None` when the drop landed nowhere. */
  function DragEnd(prev: seq<Task>, activeId: string, overId: Option<string>): (r: seq<Task>)
  {
    if overId.None? then prev
    else
      var activeIndex := FindIndex(prev, activeId);
      if activeIndex == -1 then prev
      else
        var over := overId.value;
        var overIndex := FindIndex(prev, over);
        var active := prev[activeIndex];
        match ParseGroup(over)
        case Some(g) => MoveToColumn(prev, active, g)
        case None =>
          if overIndex == -1 then prev
          else if active.group == prev[overIndex].group then ArrayMove(prev, activeIndex, overIndex)
          else MoveOntoTask(prev, active, over, prev[overIndex].group)
  }

  // ---------------------------------------------------------------------------
  // Facts about the filters and positions

  lemma HasIdIsMember(s: seq<Task>, id: string)
    ensures HasId(s, id) <==> id in IdSet(s)
  {
    if id in IdSet(s) {
      var t :| t in s && t.id == id;
      var i :| 0 <= i < |s| && s[i] == t;
    }
  }

  /** Filtering out an id distributes over concatenation: the kept tasks stay in
      their relative order. */
  lemma {:induction false} WithoutIdAppend(a: seq<Task>, b: seq<Task>, id: string)
    ensures WithoutId(a + b, id) == WithoutId(a, id) + WithoutId(b, id)
  {
    if a != [] {
      var ab := a + b;
      assert ab[0] == a[0] && ab[1..] == a[1..] + b;
      WithoutIdAppend(a[1..], b, id);
      if a[0].id == id {
        assert WithoutId(ab, id) == WithoutId(ab[1..], id);
        assert WithoutId(a, id) == WithoutId(a[1..], id);
      } else {
        assert WithoutId(ab, id) == [a[0]] + WithoutId(ab[1..], id);
        assert WithoutId(a, id) == [a[0]] + WithoutId(a[1..], id);
      }
    } else {
      assert a + b == b;
    }
  }

  lemma {:induction false} ColumnAppend(a: seq<Task>, b: seq<Task>, g: Group)
    ensures Column(a + b, g) == Column(a, g) + Column(b, g)
  {
    if a != [] {
      assert (a + b)[0] == a[0] && (a + b)[1..] == a[1..] + b;
      ColumnAppend(a[1..], b, g);
    } else {
      assert a + b == b;
    }
  }

  /** A column holds each task of its group as often as the board does, and no
      other task. */
  lemma {:induction false} ColumnMultiset(s: seq<Task>, g: Group, t: Task)
    ensures multiset(Column(s, g))[t] == if t.group == g then multiset(s)[t] else 0
  {
    if s != [] {
      assert s == [s[0]] + s[1..];
      ColumnMultiset(s[1..], g, t);
    }
  }

  /** Boards holding the same tasks have columns holding the same tasks. */
  lemma ColumnsOfPermutation(s: seq<Task>, u: seq<Task>, g: Group)
    requires multiset(s) == multiset(u)
    ensures multiset(Column(s, g)) == multiset(Column(u, g))
  {
    forall t: Task ensures multiset(Column(s, g))[t] == multiset(Column(u, g))[t] {
      ColumnMultiset(s, g, t);
      ColumnMultiset(u, g, t);
    }
  }

  lemma ColumnOfRemoveAt(s: seq<Task>, i: nat, g: Group)
    requires i < |s| && s[i].group != g
    ensures Column(RemoveAt(s, i), g) == Column(s, g)
  {
    assert s == s[..i] + ([s[i]] + s[i + 1..]);
    ColumnAppend(s[..i], [s[i]] + s[i + 1..], g);
    ColumnAppend([s[i]], s[i + 1..], g);
    ColumnAppend(s[..i], s[i + 1..], g);
  }

  lemma ColumnOfInsertAt(s: seq<Task>, i: nat, x: Task, g: Group)
    requires i <= |s| && x.group != g
    ensures Column(InsertAt(s, i, x), g) == Column(s, g)
  {
    assert InsertAt(s, i, x) == s[..i] + ([x] + s[i..]);
    assert s == s[..i] + s[i..];
    ColumnAppend(s[..i], [x] + s[i..], g);
    ColumnAppend([x], s[i..], g);
    ColumnAppend(s[..i], s[i..], g);
  }

  lemma WithoutIdOfInsertAt(s: seq<Task>, i: nat, x: Task)
    requires i <= |s| && !HasId(s, x.id)
    ensures WithoutId(InsertAt(s, i, x), x.id) == s
  {
    assert InsertAt(s, i, x) == s[..i] + ([x] + s[i..]);
    assert s == s[..i] + s[i..];
    WithoutIdAppend(s[..i], [x] + s[i..], x.id);
    WithoutIdAppend([x], s[i..], x.id);
    WithoutIdAppend(s[..i], s[i..], x.id);
  }

  lemma {:induction false} UniqueCountId(s: seq<Task>, id: string)
    requires UniqueIds(s) && HasId(s, id)
    ensures CountId(s, id) == 1
  {
    if s[0].id == id {
      assert !HasId(s[1..], id);
      NoIdCountsZero(s[1..], id);
    } else {
      var i :| 0 <= i < |s| && s[i].id == id;
      assert s[1..][i - 1].id == id;
      UniqueCountId(s[1..], id);
    }
  }

  lemma {:induction false} NoIdCountsZero(s: seq<Task>, id: string)
    requires !HasId(s, id)
    ensures CountId(s, id) == 0
  {
    if s != [] {
      assert !HasId(s[1..], id);
      NoIdCountsZero(s[1..], id);
    }
  }

  lemma {:induction false} UniqueWithoutId(s: seq<Task>, id: string)
    requires UniqueIds(s)
    ensures UniqueIds(WithoutId(s, id))
  {
    if s != [] {
      UniqueWithoutId(s[1..], id);
      var rest := WithoutId(s[1..], id);
      if s[0].id != id {
        forall j | 0 <= j < |rest| ensures rest[j].id != s[0].id {
          assert rest[j] in s[1..];
        }
      }
    }
  }

  lemma UniqueRemoveAt(s: seq<Task>, i: nat)
    requires i < |s| && UniqueIds(s)
    ensures UniqueIds(RemoveAt(s, i))
    ensures !HasId(RemoveAt(s, i), s[i].id)
  {
  }

  lemma UniqueInsertAt(s: seq<Task>, i: nat, x: Task)
    requires i <= |s| && UniqueIds(s) && !HasId(s, x.id)
    ensures UniqueIds(InsertAt(s, i, x))
  {
    var r := InsertAt(s, i, x);
    forall a, b | 0 <= a < b < |r| ensures r[a].id != r[b].id {
      if a == i {
        assert r[b] == s[b - 1];
      } else if b == i {
        assert r[a] == s[a];
      }
    }
  }

  /** Removing the tasks of one id takes exactly that id out of the id set. */
  lemma IdSetWithoutId(s: seq<Task>, id: string)
    ensures IdSet(WithoutId(s, id)) == IdSet(s) - {id}
  {
    var w := WithoutId(s, id);
    forall x | x in IdSet(s) - {id} ensures x in IdSet(w) {
      var t :| t in s && t.id == x;
      assert t in w;
    }
  }

  lemma IdSetInsertAt(s: seq<Task>, i: nat, x: Task)
    requires i <= |s|
    ensures IdSet(InsertAt(s, i, x)) == IdSet(s) + {x.id}
  {
    var r := InsertAt(s, i, x);
    assert r == s[..i] + [x] + s[i..];
    assert s == s[..i] + s[i..];
    forall y | y in IdSet(s) ensures y in IdSet(r) {
      var t :| t in s && t.id == y;
      assert t in s[..i] || t in s[i..];
    }
  }

  /** The first task carrying `x` is unaffected by removing the tasks of a
      different id. */
  lemma {:induction false} FirstSurvivesWithoutId(s: seq<Task>, id: string, x: string)
    requires x != id && HasId(s, x)
    ensures HasId(WithoutId(s, id), x)
    ensures WithoutId(s, id)[FindIndex(WithoutId(s, id), x)] == s[FindIndex(s, x)]
  {
    var w := WithoutId(s, id);
    var j := FindIndex(s, x);
    assert s[j] in w;
    if s[0].id != x {
      var t := s[1..];
      assert t[j - 1].id == x;
      FirstSurvivesWithoutId(t, id, x);
      var v := WithoutId(t, id);
      assert j == FindIndex(t, x) + 1;
      if s[0].id != id {
        assert w == [s[0]] + v;
        assert FindIndex(w, x) == FindIndex(v, x) + 1;
      } else {
        assert w == v;
      }
    } else {
      assert w == [s[0]] + WithoutId(s[1..], id);
    }
  }

  // ---------------------------------------------------------------------------
  // Properties of the board operations

  /** A sequence is determined by one element and what is left without it. */
  lemma SameAroundIndex<T>(a: seq<T>, b: seq<T>, i: nat)
    requires i < |a| && |a| == |b| && a[i] == b[i] && RemoveAt(a, i) == RemoveAt(b, i)
    ensures a == b
  {
    forall k | 0 <= k < |a| ensures a[k] == b[k] {
      if k < i {
        assert a[k] == RemoveAt(a, i)[k];
      } else if k > i {
        assert a[k] == RemoveAt(a, i)[k - 1];
        assert b[k] == RemoveAt(b, i)[k - 1];
      }
    }
  }

  /** `arrayMove` is undone by moving the element back. */
  lemma ArrayMoveRoundTrip<T>(s: seq<T>, from: nat, to: nat)
    requires from < |s| && to < |s|
    ensures ArrayMove(ArrayMove(s, from, to), to, from) == s
  {
    var back := ArrayMove(ArrayMove(s, from, to), to, from);
    SameAroundIndex(back, s, from);
  }

  /** The board is left as it was when the drop landed nowhere, when the dragged
      id is not on the board, or when the target is neither a column literal nor
      a task id. */
  lemma DragEndNoOp(prev: seq<Task>, activeId: string, overId: Option<string>)
    requires || overId.None?
             || !HasId(prev, activeId)
             || (ParseGroup(overId.value).None? && !HasId(prev, overId.value))
    ensures DragEnd(prev, activeId, overId) == prev
  {
  }

  /** A drop on a column: the dragged task, regrouped, ends up last on the board,
      it is the only task left carrying its id, and every other task is kept in
      its relative order. The column test comes first, so this holds even when
      the literal is also some task's id. */
  lemma DragEndOnColumn(prev: seq<Task>, activeId: string, over: string, g: Group)
    requires HasId(prev, activeId) && ParseGroup(over) == Some(g)
    ensures var r := DragEnd(prev, activeId, Some(over));
            var active := prev[FindIndex(prev, activeId)];
            && |r| == |prev| - CountId(prev, activeId) + 1
            && r[|r| - 1] == active.(group := g)
            && (forall i :: 0 <= i < |r| - 1 ==> r[i].id != activeId)
            && WithoutId(r, activeId) == WithoutId(prev, activeId)
  {
    var active := prev[FindIndex(prev, activeId)];
    AppendedOnce(WithoutId(prev, activeId), active.(group := g));
  }

  /** A task whose id is new to the sequence, appended, is the one task carrying
      that id, and filtering its id out undoes it. */
  lemma AppendedOnce(w: seq<Task>, u: Task)
    requires !HasId(w, u.id)
    ensures var r := w + [u];
            && (forall i :: 0 <= i < |r| - 1 ==> r[i].id != u.id)
            && WithoutId(r, u.id) == w
  {
    WithoutIdAppend(w, [u], u.id);
    assert WithoutId([u], u.id) == [];
  }

  /** A drop onto a task of the same group is `arrayMove` from the dragged
      task's index to the target's: a permutation that puts the dragged task at
      the target's index, keeps the others in relative order, leaves every
      other column untouched and only reorders its own column. */
  lemma DragEndWithinGroup(prev: seq<Task>, activeId: string, over: string)
    requires ParseGroup(over).None? && HasId(prev, activeId) && HasId(prev, over)
    requires prev[FindIndex(prev, activeId)].group == prev[FindIndex(prev, over)].group
    ensures var r := DragEnd(prev, activeId, Some(over));
            var from := FindIndex(prev, activeId);
            var to := FindIndex(prev, over);
            && |r| == |prev|
            && multiset(r) == multiset(prev)
            && r[to] == prev[from]
            && RemoveAt(r, to) == RemoveAt(prev, from)
            && (forall h :: h != prev[from].group ==> Column(r, h) == Column(prev, h))
            && multiset(Column(r, prev[from].group)) == multiset(Column(prev, prev[from].group))
  {
    var from := FindIndex(prev, activeId);
    var to := FindIndex(prev, over);
    var r := DragEnd(prev, activeId, Some(over));
    assert r == ArrayMove(prev, from, to);
    forall h | h != prev[from].group ensures Column(r, h) == Column(prev, h) {
      ColumnOfRemoveAt(prev, from, h);
      ColumnOfInsertAt(RemoveAt(prev, from), to, prev[from], h);
    }
    ColumnsOfPermutation(r, prev, prev[from].group);
  }

  /** The placement a cross-group drop computes. */
  lemma MoveOntoTaskShape(s: seq<Task>, active: Task, overId: string, g: Group)
    requires overId != active.id && HasId(s, overId)
    ensures var r := MoveOntoTask(s, active, overId, g);
            var k := FindIndex(r, active.id);
            && 0 <= k < |r| - 1
            && r[k] == active.(group := g)
            && r[k + 1] == s[FindIndex(s, overId)]
            && FindIndex(r, overId) == k + 1
            && (forall i :: 0 <= i < |r| && r[i].id == active.id ==> i == k)
            && WithoutId(r, active.id) == WithoutId(s, active.id)
  {
    var w := WithoutId(s, active.id);
    FirstSurvivesWithoutId(s, active.id, overId);
    var k := FindIndex(w, overId);
    InsertedOnce(w, k, active.(group := g));
    InsertedBeforeFirst(w, k, active.(group := g), overId);
  }

  /** Inserting a task with another id just before the first task carrying
      `id` makes that task the first one after it. */
  lemma InsertedBeforeFirst(w: seq<Task>, k: nat, u: Task, id: string)
    requires k < |w| && FindIndex(w, id) == k && u.id != id
    ensures FindIndex(InsertAt(w, k, u), id) == k + 1
  {
    var r := InsertAt(w, k, u);
    assert r[k + 1].id == id;
    forall j | 0 <= j < k + 1 ensures r[j].id != id {
      if j < k {
        assert r[j] == w[j];
      }
    }
  }

  /** A task whose id is new to the sequence, inserted before position `k`, is
      the one task carrying that id, and filtering its id out undoes it. */
  lemma InsertedOnce(w: seq<Task>, k: nat, u: Task)
    requires k < |w| && !HasId(w, u.id)
    ensures var r := InsertAt(w, k, u);
            && FindIndex(r, u.id) == k
            && r[k + 1] == w[k]
            && (forall i :: 0 <= i < |r| && r[i].id == u.id ==> i == k)
            && WithoutId(r, u.id) == w
  {
    var r := InsertAt(w, k, u);
    WithoutIdOfInsertAt(w, k, u);
    assert forall i :: 0 <= i < |r| && r[i].id == u.id ==> i == k by {
      forall i | 0 <= i < |r| && i != k ensures r[i].id != u.id {
        if i > k {
          assert r[i] == w[i - 1];
        } else {
          assert r[i] == w[i];
        }
      }
    }
  }

  /** A drop onto a task of another group: the dragged task takes the target's
      group and sits immediately before the target; it is the only task carrying
      its id, and all other tasks keep their relative order. */
  lemma DragEndAcrossGroups(prev: seq<Task>, activeId: string, over: string)
    requires ParseGroup(over).None? && HasId(prev, activeId) && HasId(prev, over)
    requires prev[FindIndex(prev, activeId)].group != prev[FindIndex(prev, over)].group
    ensures var r := DragEnd(prev, activeId, Some(over));
            var active := prev[FindIndex(prev, activeId)];
            var target := prev[FindIndex(prev, over)];
            var k := FindIndex(r, activeId);
            && 0 <= k < |r| - 1
            && r[k] == active.(group := target.group)
            && r[k + 1] == target
            && FindIndex(r, over) == k + 1
            && (forall i :: 0 <= i < |r| && r[i].id == activeId ==> i == k)
            && WithoutId(r, activeId) == WithoutId(prev, activeId)
  {
    var active := prev[FindIndex(prev, activeId)];
    var target := prev[FindIndex(prev, over)];
    assert DragEnd(prev, activeId, Some(over)) == MoveOntoTask(prev, active, over, target.group);
    MoveOntoTaskShape(prev, active, over, target.group);
  }

  lemma MoveToColumnKeepsIds(s: seq<Task>, active: Task, g: Group)
    requires active in s
    ensures IdSet(MoveToColumn(s, active, g)) == IdSet(s)
    ensures UniqueIds(s) ==> UniqueIds(MoveToColumn(s, active, g)) && |MoveToColumn(s, active, g)| == |s|
  {
    var w := WithoutId(s, active.id);
    var u := active.(group := g);
    IdSetWithoutId(s, active.id);
    assert MoveToColumn(s, active, g) == InsertAt(w, |w|, u);
    IdSetInsertAt(w, |w|, u);
    if UniqueIds(s) {
      UniqueWithoutId(s, active.id);
      UniqueInsertAt(w, |w|, u);
      HasIdIsMember(s, active.id);
      UniqueCountId(s, active.id);
    }
  }

  lemma MoveOntoTaskKeepsIds(s: seq<Task>, active: Task, overId: string, g: Group)
    requires active in s && overId != active.id && HasId(s, overId)
    ensures IdSet(MoveOntoTask(s, active, overId, g)) == IdSet(s)
    ensures UniqueIds(s) ==> UniqueIds(MoveOntoTask(s, active, overId, g))
    ensures UniqueIds(s) ==> |MoveOntoTask(s, active, overId, g)| == |s|
  {
    var w := WithoutId(s, active.id);
    var u := active.(group := g);
    FirstSurvivesWithoutId(s, active.id, overId);
    var k := FindIndex(w, overId);
    assert MoveOntoTask(s, active, overId, g) == InsertAt(w, k, u);
    IdSetWithoutId(s, active.id);
    IdSetInsertAt(w, k, u);
    if UniqueIds(s) {
      UniqueWithoutId(s, active.id);
      UniqueInsertAt(w, k, u);
      HasIdIsMember(s, active.id);
      UniqueCountId(s, active.id);
    }
  }

  /** Sequences holding the same tasks carry the same ids. */
  lemma IdSetOfPermutation(a: seq<Task>, b: seq<Task>)
    requires multiset(a) == multiset(b)
    ensures IdSet(a) == IdSet(b)
  {
    forall x | x in IdSet(a) ensures x in IdSet(b) {
      var t :| t in a && t.id == x;
      assert t in multiset(b);
    }
    forall x | x in IdSet(b) ensures x in IdSet(a) {
      var t :| t in b && t.id == x;
      assert t in multiset(a);
    }
  }

  lemma ArrayMoveKeepsIds(s: seq<Task>, from: nat, to: nat)
    requires from < |s| && to < |s|
    ensures IdSet(ArrayMove(s, from, to)) == IdSet(s)
    ensures UniqueIds(s) ==> UniqueIds(ArrayMove(s, from, to))
  {
    IdSetOfPermutation(ArrayMove(s, from, to), s);
    if UniqueIds(s) {
      UniqueRemoveAt(s, from);
      UniqueInsertAt(RemoveAt(s, from), to, s[from]);
    }
  }

  /** Dragging never adds or loses an id, and on a board whose ids are unique it
      keeps them unique and keeps the number of tasks. */
  lemma DragEndKeepsIds(prev: seq<Task>, activeId: string, overId: Option<string>)
    ensures IdSet(DragEnd(prev, activeId, overId)) == IdSet(prev)
    ensures UniqueIds(prev) ==> UniqueIds(DragEnd(prev, activeId, overId))
    ensures UniqueIds(prev) ==> |DragEnd(prev, activeId, overId)| == |prev|
  {
    if overId.Some? && HasId(prev, activeId) {
      var over := overId.value;
      var from := FindIndex(prev, activeId);
      var active := prev[from];
      match ParseGroup(over)
      case Some(g) =>
        MoveToColumnKeepsIds(prev, active, g);
      case None =>
        if HasId(prev, over) {
          var to := FindIndex(prev, over);
          if active.group == prev[to].group {
            ArrayMoveKeepsIds(prev, from, to);
          } else {
            MoveOntoTaskKeepsIds(prev, active, over, prev[to].group);
          }
        }
    }
  }

  /** Renaming touches only the tasks of that id: the rest of the board, in
      order, is exactly as before. */
  lemma RenameKeepsOthers(s: seq<Task>, id: string, title: string)
    ensures WithoutId(RenameTask(s, id, title), id) == WithoutId(s, id)
  {
    var r := RenameTask(s, id, title);
    if s != [] {
      assert r == [r[0]] + r[1..] && s == [s[0]] + s[1..];
      assert r[1..] == RenameTask(s[1..], id, title);
      RenameKeepsOthers(s[1..], id, title);
      WithoutIdAppend([r[0]], r[1..], id);
      WithoutIdAppend([s[0]], s[1..], id);
    }
  }

  /** The latest rename of an id wins. */
  lemma RenameLastWins(s: seq<Task>, id: string, a: string, b: string)
    ensures RenameTask(RenameTask(s, id, a), id, b) == RenameTask(s, id, b)
  {
  }

  /** Renaming keeps the set of ids, and unique ids stay unique. */
  lemma RenameKeepsIds(s: seq<Task>, id: string, title: string)
    ensures IdSet(RenameTask(s, id, title)) == IdSet(s)
    ensures UniqueIds(s) ==> UniqueIds(RenameTask(s, id, title))
  {
    var r := RenameTask(s, id, title);
    forall x | x in IdSet(s) ensures x in IdSet(r) {
      var t :| t in s && t.id == x;
      var i :| 0 <= i < |s| && s[i] == t;
      assert r[i].id == x;
    }
    forall x | x in IdSet(r) ensures x in IdSet(s) {
      var t :| t in r && t.id == x;
      var i :| 0 <= i < |r| && r[i] == t;
      assert s[i].id == x;
    }
  }

  /** Deleting is idempotent, keeps unique ids unique, and commutes with taking
      a column. */
  lemma DeleteProperties(s: seq<Task>, id: string, g: Group)
    ensures WithoutId(WithoutId(s, id), id) == WithoutId(s, id)
    ensures UniqueIds(s) ==> UniqueIds(WithoutId(s, id))
    ensures Column(WithoutId(s, id), g) == WithoutId(Column(s, g), id)
  {
    if UniqueIds(s) {
      UniqueWithoutId(s, id);
    }
    ColumnWithoutId(s, id, g);
  }

  lemma {:induction false} ColumnWithoutId(s: seq<Task>, id: string, g: Group)
    ensures Column(WithoutId(s, id), g) == WithoutId(Column(s, g), id)
  {
    if s != [] {
      ColumnWithoutId(s[1..], id, g);
    }
  }
}

=== FILE: task_editing.dfy ===
/** The inline title editor of one task item: a click opens the editor, Enter or
    blur commits, Escape reverts. The board shares a single `editingId`, so an
    item is editing exactly when that id is its own. */
module TaskEditing {
  import opened Wrappers
  import opened Text
  import opened SpecModel
  import opened TaskBoard

  /** The commit rule `value.trim() || task.title`: the trimmed text, unless it
      is empty, in which case the current title is kept. */
  function CommitTitle(value: string, current: string): (r: string)
    ensures r == Trim(value) || r == current
    ensures IsBlank(value) ==> r == current
    ensures !IsBlank(value) ==> r == Trim(value) && r != "" && Trimmed(r)
    ensures current != "" ==> r != ""
  {
    var t := Trim(value);
    AllWhitespaceTrimsToEmpty(value);
    if t != "" then t else current
  }

  /** What a user can do to an item. Keys other than Enter and Escape do nothing. */
  datatype Event = Click | Change(text: string) | KeyDown(key: string) | Blur

  /** The item's local state: the input's `value`, and the title the
      `[task.title]` effect last ran with. */
  datatype Item = Item(value: string, synced: string)

  /** A call of `onUpdate(id, title)`. */
  datatype TitleUpdate = TitleUpdate(id: string, title: string)

  /** The outcome of one event: the item's new local state, the board's new
      `editingId`, and the update the item asked for, if any. */
  datatype Reaction = Reaction(item: Item, editingId: Option<string>, update: Option<TitleUpdate>)

  /** A freshly mounted item starts from its task's title. */
  function Mount(task: Task): Item {
    Item(task.title, task.title)
  }

  predicate IsEditing(editingId: Option<string>, task: Task) {
    editingId == Some(task.id)
  }

  /** The effect on `[task.title]`: it runs only when the title differs from the
      one it last ran with, and then copies the title into the input. */
  function Resync(item: Item, title: string): (r: Item)
    ensures r.synced == title
    ensures title != item.synced ==> r.value == title
    ensures title == item.synced ==> r == item
  {
    if title == item.synced then item else Item(title, title)
  }

  /** Enter and blur: ask for the commit title and close the editor. */
  function Commit(task: Task, item: Item): Reaction {
    Reaction(item, None, Some(TitleUpdate(task.id, CommitTitle(item.value, task.title))))
  }

  /** One event on the item showing `task`. The input exists only while the item
      is editing and the clickable title only while it is not, so an event aimed
      at the element that is not shown changes nothing. */
  function Handle(task: Task, editingId: Option<string>, item: Item, ev: Event): (r: Reaction)
    ensures r.update.Some? ==> r.update.value.id == task.id && r.editingId.None?
    ensures r.update.Some? ==> r.update.value.title == CommitTitle(item.value, task.title)
    ensures r.editingId != editingId ==> r.editingId == None || r.editingId == Some(task.id)
  {
    var idle := Reaction(item, editingId, None);
    var editing := IsEditing(editingId, task);
    match ev
    case Click => if editing then idle else Reaction(item, Some(task.id), None)
    case Change(text) => if editing then Reaction(item.(value := text), editingId, None) else idle
    case Blur => if editing then Commit(task, item) else idle
    case KeyDown(key) =>
      if !editing then idle
      else if key == "Enter" then Commit(task, item)
      else if key == "Escape" then Reaction(item.(value := task.title), None, None)
      else idle
  }

  /** The board's side of an update: `updateTaskTitle`. */
  function ApplyUpdate(tasks: seq<Task>, update: Option<TitleUpdate>): (r: seq<Task>)
    ensures update.None? ==> r == tasks
    ensures |r| == |tasks|
  {
    if update.Some? then RenameTask(tasks, update.value.id, update.value.title) else tasks
  }

  // ---------------------------------------------------------------------------
  // Lemmas

  /** Enter and blur commit alike: one update with the commit title, and the
      editor closes; the local value is left as typed. */
  lemma CommitPaths(task: Task, editingId: Option<string>, item: Item)
    requires IsEditing(editingId, task)
    ensures Handle(task, editingId, item, KeyDown("Enter")) == Handle(task, editingId, item, Blur)
    ensures var r := Handle(task, editingId, item, Blur);
            && r.editingId == None
            && r.update == Some(TitleUpdate(task.id, CommitTitle(item.value, task.title)))
            && r.item == item
  {
  }

  /** Escape puts the title back into the input and closes the editor without
      asking for an update. */
  lemma EscapeReverts(task: Task, editingId: Option<string>, item: Item)
    requires IsEditing(editingId, task)
    ensures var r := Handle(task, editingId, item, KeyDown("Escape"));
            r.update == None && r.editingId == None && r.item.value == task.title
  {
  }

  /** Only a commit asks for an update, and a click is the only way into the
      editor. */
  lemma UpdateOnlyOnCommit(task: Task, editingId: Option<string>, item: Item, ev: Event)
    ensures var r := Handle(task, editingId, item, ev);
            r.update.Some? <==> IsEditing(editingId, task) && (ev == Blur || ev == KeyDown("Enter"))
    ensures var r := Handle(task, editingId, item, ev);
            IsEditing(r.editingId, task) && !IsEditing(editingId, task) ==> ev == Click
  {
  }

  /** Editing never leaves a task with an empty title: when every title on the
      board is non-empty before an event, every title is non-empty after it. */
  lemma {:induction false} TitlesStayNonEmpty(tasks: seq<Task>, task: Task, editingId: Option<string>, item: Item, ev: Event)
    requires task in tasks
    requires forall i :: 0 <= i < |tasks| ==> tasks[i].title != ""
    ensures var after := ApplyUpdate(tasks, Handle(task, editingId, item, ev).update);
            forall i :: 0 <= i < |after| ==> after[i].title != ""
  {
    var r := Handle(task, editingId, item, ev);
    var after := ApplyUpdate(tasks, r.update);
    forall i | 0 <= i < |after| ensures after[i].title != "" {
      if r.update.Some? && tasks[i].id == task.id {
        assert after[i].title == CommitTitle(item.value, task.title);
      }
    }
  }

  /** A blank commit leaves the board exactly as it was. */
  lemma BlankCommitKeepsBoard(tasks: seq<Task>, task: Task, item: Item)
    requires task in tasks && UniqueIds(tasks)
    requires IsBlank(item.value)
    ensures ApplyUpdate(tasks, Commit(task, item).update) == tasks
  {
    var r := RenameTask(tasks, task.id, task.title);
    forall i | 0 <= i < |tasks| ensures r[i] == tasks[i] {
      if tasks[i].id == task.id {
        var j :| 0 <= j < |tasks| && tasks[j] == task;
        assert i == j;
      }
    }
  }

  /** With distinct ids, at most one task of the board is in edit mode. */
  lemma AtMostOneEditing(tasks: seq<Task>, editingId: Option<string>, i: int, j: int)
    requires UniqueIds(tasks)
    requires 0 <= i < |tasks| && 0 <= j < |tasks|
    requires IsEditing(editingId, tasks[i]) && IsEditing(editingId, tasks[j])
    ensures i == j
  {
  }

  /** The single-editor guarantee rests on distinct ids: two tasks sharing an id
      are both in edit mode after one click. */
  lemma SharedIdEditsTwice()
    ensures var a := Task("t1", "Login form", Frontend);
            var b := Task("t1", "Login API", Backend);
            var r := Handle(a, None, Mount(a), Click);
            IsEditing(r.editingId, a) && IsEditing(r.editingId, b)
  {
  }

  /** The input follows the title whenever the title changes. */
  lemma ResyncFollowsTitle(task: Task, item: Item, title: string)
    requires item.synced == task.title && title != task.title
    ensures Resync(item, title) == Mount(task.(title := title))
  {
  }

  // ---------------------------------------------------------------------------
  // A committed blank title leaves stale text in the input

  /** One round as the component runs it: the event, the board update, the
      re-render's effect, and the item as the board now shows it. */
  function Round(tasks: seq<Task>, k: nat, editingId: Option<string>, item: Item, ev: Event): (r: (seq<Task>, Option<string>, Item))
    requires k < |tasks|
    ensures |r.0| == |tasks| && r.0[k].id == tasks[k].id
  {
    var reaction := Handle(tasks[k], editingId, item, ev);
    var after := ApplyUpdate(tasks, reaction.update);
    (after, reaction.editingId, Resync(reaction.item, after[k].title))
  }

  /** As written: clear the text, press Enter, click again — the editor reopens
      showing the blank text, not the title, because the title did not change
      and the effect did not run. */
  lemma StaleValueAfterBlankCommit()
    ensures var tasks := [Task("t1", "Login form", Frontend)];
            var s1 := Round(tasks, 0, None, Mount(tasks[0]), Click);
            var s2 := Round(s1.0, 0, s1.1, s1.2, Change("   "));
            var s3 := Round(s2.0, 0, s2.1, s2.2, KeyDown("Enter"));
            var s4 := Round(s3.0, 0, s3.1, s3.2, Click);
            && s4.0 == tasks
            && IsEditing(s4.1, tasks[0])
            && s4.2.value == "   "
            && s4.2.value != s4.0[0].title
  {
    var tasks := [Task("t1", "Login form", Frontend)];
    var s1 := Round(tasks, 0, None, Mount(tasks[0]), Click);
    var s2 := Round(s1.0, 0, s1.1, s1.2, Change("   "));
    assert IsBlank("   ");
    assert CommitTitle("   ", "Login form") == "Login form";
  }

  /** Corrected: a commit also writes the committed title into the input. */
  function CommitSynced(task: Task, item: Item): (r: Reaction)
    ensures r.editingId == None && r.update == Commit(task, item).update
    ensures r.item.value == r.update.value.title
  {
    var title := CommitTitle(item.value, task.title);
    Reaction(item.(value := title), None, Some(TitleUpdate(task.id, title)))
  }

  function HandleSynced(task: Task, editingId: Option<string>, item: Item, ev: Event): (r: Reaction)
    ensures r.update == Handle(task, editingId, item, ev).update
    ensures r.editingId == Handle(task, editingId, item, ev).editingId
  {
    var editing := IsEditing(editingId, task);
    match ev
    case Blur => if editing then CommitSynced(task, item) else Handle(task, editingId, item, ev)
    case KeyDown(key) =>
      if editing && key == "Enter" then CommitSynced(task, item) else Handle(task, editingId, item, ev)
    case _ => Handle(task, editingId, item, ev)
  }

  /** With the corrected commit, whenever the editor closes the input holds the
      title the board shows for the item, so reopening shows the current title. */
  lemma {:induction false} ClosedEditorShowsTitle(tasks: seq<Task>, k: nat, editingId: Option<string>, item: Item, ev: Event)
    requires k < |tasks| && IsEditing(editingId, tasks[k])
    ensures var r := HandleSynced(tasks[k], editingId, item, ev);
            var after := ApplyUpdate(tasks, r.update);
            r.editingId == None ==> Resync(r.item, after[k].title).value == after[k].title
  {
    var task := tasks[k];
    var r := HandleSynced(task, editingId, item, ev);
    var after := ApplyUpdate(tasks, r.update);
    if r.editingId == None {
      if r.update.Some? {
        assert after[k].title == r.update.value.title;
      } else {
        assert ev == KeyDown("Escape");
        assert after[k] == task;
      }
    }
  }
}

=== FILE: text.dfy ===
/** String primitives of the JavaScript runtime that the modelled code relies on:
    `String.prototype.trim`, `startsWith`/`endsWith`, `Array.prototype.join`,
    splitting on line breaks, and the `/\s+/g` whitespace-run replacement. */
module Text {

  /** The characters JavaScript counts as white space or line terminators: the set
      matched by `\s` in a regular expression and removed by `trim()`. */
  const WhitespaceChars: set<char> := {
    ' ', '\t', '\n', '\r', '\U{000B}', '\U{000C}', '\U{00A0}', '\U{1680}',
    '\U{2000}', '\U{2001}', '\U{2002}', '\U{2003}', '\U{2004}', '\U{2005}',
    '\U{2006}', '\U{2007}', '\U{2008}', '\U{2009}', '\U{200A}',
    '\U{2028}', '\U{2029}', '\U{202F}', '\U{205F}', '\U{3000}', '\U{FEFF}'
  }

  predicate IsWhitespace(c: char) {
    c in WhitespaceChars
  }

  predicate AllWhitespace(s: string) {
    forall i :: 0 <= i < |s| ==> IsWhitespace(s[i])
  }

  predicate NoWhitespace(s: string) {
    forall i :: 0 <= i < |s| ==> !IsWhitespace(s[i])
  }

  /** Neither end of `s` is white space: `s` is a fixed point of `trim()`. */
  predicate Trimmed(s: string) {
    s == [] || (!IsWhitespace(s[0]) && !IsWhitespace(s[|s| - 1]))
  }

  /** Nothing but white space: `trim()` turns it into the empty, falsy string. */
  predicate IsBlank(s: string) {
    AllWhitespace(s)
  }

  /** The first index at or after `i` that does not hold white space. */
  function LeadEnd(s: string, i: nat): (n: nat)
    requires i <= |s|
    ensures i <= n <= |s|
    ensures forall j :: i <= j < n ==> IsWhitespace(s[j])
    ensures n < |s| ==> !IsWhitespace(s[n])
    decreases |s| - i
  {
    if i < |s| && IsWhitespace(s[i]) then LeadEnd(s, i + 1) else i
  }

  /** Scanning down from `j` to `lo`, the end of the last character that is not
      white space. */
  function TrailStart(s: string, lo: nat, j: nat): (n: nat)
    requires lo <= j <= |s|
    ensures lo <= n <= j
    ensures forall k :: n <= k < j ==> IsWhitespace(s[k])
    ensures n > lo ==> !IsWhitespace(s[n - 1])
    decreases j - lo
  {
    if j > lo && IsWhitespace(s[j - 1]) then TrailStart(s, lo, j - 1) else j
  }

  /** How much white space `trim()` cuts from the front of `s`. */
  function Lead(s: string): nat {
    LeadEnd(s, 0)
  }

  /** `String.prototype.trim`: the result is `s` with its white-space prefix and
      suffix cut off, and has no white space at either end. */
  function Trim(s: string): (r: string)
    ensures Trimmed(r)
    ensures Lead(s) + |r| <= |s| && s[Lead(s)..Lead(s) + |r|] == r
    ensures AllWhitespace(s[..Lead(s)]) && AllWhitespace(s[Lead(s) + |r|..])
  {
    var a := LeadEnd(s, 0);
    var b := TrailStart(s, a, |s|);
    s[a..b]
  }

  lemma {:induction false} LeadEndIs(s: string, i: nat, n: nat)
    requires i <= n <= |s|
    requires forall j :: i <= j < n ==> IsWhitespace(s[j])
    requires n < |s| ==> !IsWhitespace(s[n])
    ensures LeadEnd(s, i) == n
    decreases n - i
  {
    if i < n {
      LeadEndIs(s, i + 1, n);
    }
  }

  lemma {:induction false} TrailStartIs(s: string, lo: nat, n: nat, j: nat)
    requires lo <= n <= j <= |s|
    requires forall k :: n <= k < j ==> IsWhitespace(s[k])
    requires n > lo ==> !IsWhitespace(s[n - 1])
    ensures TrailStart(s, lo, j) == n
    decreases j - n
  {
    if n < j {
      TrailStartIs(s, lo, n, j - 1);
    }
  }

  /** `trim()` removes exactly the white space around a trimmed core. */
  lemma TrimOfPadded(a: string, m: string, b: string)
    requires AllWhitespace(a) && AllWhitespace(b) && Trimmed(m)
    ensures Trim(a + m + b) == m
  {
    var s := a + m + b;
    var lo := |a|;
    var hi := |a| + |m|;
    assert forall j :: 0 <= j < lo ==> s[j] == a[j];
    assert forall j :: hi <= j < |s| ==> s[j] == b[j - hi];
    if m == [] {
      LeadEndIs(s, 0, |s|);
      TrailStartIs(s, |s|, |s|, |s|);
    } else {
      assert s[lo] == m[0] && s[hi - 1] == m[|m| - 1];
      LeadEndIs(s, 0, lo);
      TrailStartIs(s, lo, hi, |s|);
      assert s[lo..hi] == m;
    }
  }

  lemma WhitespaceConcat(a: string, b: string)
    requires AllWhitespace(a) && AllWhitespace(b)
    ensures AllWhitespace(a + b)
  {
    forall j | 0 <= j < |a + b| ensures IsWhitespace((a + b)[j]) {
      if j >= |a| {
        assert (a + b)[j] == b[j - |a|];
      }
    }
  }

  /** A string trims to the empty string exactly when it is all white space. */
  lemma AllWhitespaceTrimsToEmpty(s: string)
    ensures Trim(s) == [] <==> AllWhitespace(s)
  {
    var k := Lead(s);
    if Trim(s) == [] {
      assert s == s[..k] + s[k..];
      WhitespaceConcat(s[..k], s[k..]);
    }
    if AllWhitespace(s) {
      LeadEndIs(s, 0, |s|);
    }
  }

  lemma TrimIdempotent(s: string)
    ensures Trim(Trim(s)) == Trim(s)
  {
    var r := Trim(s);
    assert r == [] + r + [];
    TrimOfPadded([], r, []);
  }

  predicate StartsWith(s: string, prefix: string) {
    |prefix| <= |s| && s[..|prefix|] == prefix
  }

  predicate EndsWith(s: string, suffix: string) {
    |suffix| <= |s| && s[|s| - |suffix|..] == suffix
  }

  /** `Array.prototype.join(sep)` on an array of strings. */
  function Join(parts: seq<string>, sep: string): string
  {
    if |parts| == 0 then ""
    else if |parts| == 1 then parts[0]
    else parts[0] + sep + Join(parts[1..], sep)
  }

  /** `s.split("\n")`: the pieces between line breaks; never empty. */
  function SplitLines(s: string): (r: seq<string>)
    ensures |r| >= 1
    ensures forall i :: 0 <= i < |r| ==> '\n' !in r[i]
  {
    if s == [] then [""]
    else
      var rest := SplitLines(s[1..]);
      if s[0] == '\n' then [""] + rest
      else [[s[0]] + rest[0]] + rest[1..]
  }

  /** Joining the lines of `s` with line breaks gives `s` back. */
  lemma {:induction false} JoinSplitLines(s: string)
    ensures Join(SplitLines(s), "\n") == s
  {
    if s != [] {
      var rest := SplitLines(s[1..]);
      JoinSplitLines(s[1..]);
      if s[0] == '\n' {
        assert SplitLines(s) == [""] + rest;
        assert ([""] + rest)[1..] == rest;
      } else {
        var r := SplitLines(s);
        assert r == [[s[0]] + rest[0]] + rest[1..];
        if |rest| == 1 {
          assert r == [[s[0]] + rest[0]];
        } else {
          assert r[1..] == rest[1..];
          assert Join(rest, "\n") == rest[0] + "\n" + Join(rest[1..], "\n");
        }
      }
    }
  }

  lemma {:induction false} SplitLinesNoBreak(s: string)
    requires '\n' !in s
    ensures SplitLines(s) == [s]
  {
    if s != [] {
      assert s[0] != '\n' && '\n' !in s[1..];
      SplitLinesNoBreak(s[1..]);
      assert [s[0]] + s[1..] == s;
    }
  }

  /** A line break splits a text into the lines before it followed by the lines after it. */
  lemma {:induction false} SplitLinesAppend(a: string, b: string)
    ensures SplitLines(a + "\n" + b) == SplitLines(a) + SplitLines(b)
  {
    if a == [] {
      assert a + "\n" + b == "\n" + b;
      assert ("\n" + b)[1..] == b;
    } else {
      assert (a + "\n" + b)[0] == a[0];
      assert (a + "\n" + b)[1..] == a[1..] + "\n" + b;
      SplitLinesAppend(a[1..], b);
    }
  }

  /** Splitting a line-break join of break-free lines gives the lines back. */
  lemma {:induction false} SplitJoinLines(lines: seq<string>)
    requires |lines| >= 1
    requires forall i :: 0 <= i < |lines| ==> '\n' !in lines[i]
    ensures SplitLines(Join(lines, "\n")) == lines
  {
    SplitLinesNoBreak(lines[0]);
    if |lines| > 1 {
      SplitJoinLines(lines[1..]);
      SplitLinesAppend(lines[0], Join(lines[1..], "\n"));
      assert lines == [lines[0]] + lines[1..];
    }
  }

  /** `s.replace(/\s+/g, "_")`: every maximal run of white space becomes one `_`. */
  function ReplaceWhitespaceRuns(s: string): (r: string)
    ensures NoWhitespace(r)
    ensures NoWhitespace(s) ==> r == s
    ensures |r| <= |s|
    decreases |s|
  {
    if s == [] then []
    else if IsWhitespace(s[0]) then
      var rest := s[Lead(s)..];
      "_" + ReplaceWhitespaceRuns(rest)
    else
      assert NoWhitespace(s) ==> NoWhitespace(s[1..]);
      [s[0]] + ReplaceWhitespaceRuns(s[1..])
  }

  /** A white-space-free head is copied and the run after it collapses to a single `_`. */
  lemma {:induction false} ReplaceRunAfterWord(a: string, w: string, b: string)
    requires NoWhitespace(a)
    requires w != [] && AllWhitespace(w)
    requires b == [] || !IsWhitespace(b[0])
    ensures ReplaceWhitespaceRuns(a + w + b) == a + "_" + ReplaceWhitespaceRuns(b)
  {
    if a == [] {
      var s := a + w + b;
      assert s == w + b;
      assert forall j :: 0 <= j < |w| ==> s[j] == w[j];
      assert |w| < |s| ==> s[|w|] == b[0];
      LeadEndIs(s, 0, |w|);
      assert s[|w|..] == b;
    } else {
      var s := a + w + b;
      assert s[0] == a[0] && s[1..] == a[1..] + w + b;
      assert NoWhitespace(a[1..]);
      ReplaceRunAfterWord(a[1..], w, b);
    }
  }

  /** One line of a multi-line text followed by the rest of the text. */
  function Line(line: string, rest: string): string {
    line + "\n" + rest
  }

  lemma DoubleBreak(a: string, b: string)
    ensures a + "\n\n" + b == Line(a, Line("", b))
  {
  }

  /** A break-free first line is the first of the text's lines. */
  lemma LineLines(line: string, rest: string)
    requires '\n' !in line
    ensures SplitLines(Line(line, rest)) == [line] + SplitLines(rest)
  {
    SplitLinesAppend(line, rest);
    SplitLinesNoBreak(line);
  }
}

=== FILE: wrappers.dfy ===
/** Failure-carrying values shared by every module of the model: `Option` for a
    JavaScript value that may be `undefined`, `Result` for a step that may fail. */
module Wrappers {

  datatype Option<+T> = None | Some(value: T)

  datatype Result<+R, +E> = Success(value: R) | Failure(error: E)
}
